=== FILE: README.md ===
# Pyre native client: configuration resolution

A Dafny model of how the native client of the Pyre type checker turns a
command line and the configuration files on disk into one resolved
`Configuration`, and of how it classifies the outcome of a `check` run.

The model covers:

- **Discovery.** Walk up from a base directory to the nearest
  `.pyre_configuration` (the global root) and the nearest
  `.pyre_configuration.local` (the local root). A local root that is the
  global root or lies above it is dropped. The kept local root is then
  written relative to the global root.
- **Path expansion.** A configured path starting with `//` is read
  relative to the global root. Any other relative path is read relative to
  the directory of the layer that set it. Expanding one glob search-path
  element into its sorted matches (`ExpandGlob`) is modelled on its own;
  neither `create_configuration` nor `from_partial_configuration` calls it.
- **Layers.** A `PartialConfiguration` is one layer of settings, each
  optional. The command line gives one layer. Each configuration file gives
  another, decoded by typed "pop key" helpers that report deprecated and
  unrecognized keys. `ExpandRelativePaths` anchors a layer at its own
  directory.
- **Assembly.** `create_configuration` merges the layers in the order
  global, local, command line. It enforces the rules for an explicitly
  requested local configuration. `Configuration::from_partial_configuration`
  then fills in the defaults.
- **Small parsers.** The Python version (`X`, `X.Y` or `X.Y.Z`, printed as
  `X.Y.Z`) and the site-package search strategy names.
- **Check outcome.** `check_command` runs `binary newcheck <argument file>`.
  The result is Ok, "I/O error", "Command failed" or "Had some type errors".

These are turned into parameters:

- the set of existing files;
- the parsed contents of each readable configuration file;
- the working directory;
- canonicalisation (`string -> string`);
- glob matching (`string -> seq<string>`);
- the layer merge;
- running the checker process and decoding its output.

Directories found by discovery are sequences of path components (`Dir`).
Configured paths stay strings, because the `//` marker is a string prefix.
`Render` turns a directory into its absolute string form.

Five places where the source is pseudo-code or a stub are modelled by
their evident intent:

- `is_list_of_string` always returns `false`
  (nativeclient/src/configuration/configuration.rs:222-227). It is modelled
  as its comment describes: a list whose elements are all strings.
- Several helper error branches build a message with `format!` but never
  return it. They are modelled as errors.
- In `create_configuration`, the bindings made inside the `match` arms are
  read as the values that reach the final `from_partial_configuration` call.
- `from_command_arguments` calls `PythonVersion::from_string`
  (nativeclient/src/configuration/configuration.rs:197), which is not defined.
  It is read as `PythonVersion::new` (python_version.rs:22).
- `from_command_arguments` returns `Self` and has no error path, so a
  `Result` from `new` has nowhere to go. The model lets an invalid Python
  version flag fail `from_command_arguments` with that parse error, which
  `create_configuration` then returns.

## Model

| member | source | states |
|---|---|---|
| Text.Split | nativeclient/src/configuration/python_version.rs:23 | `str::split` on '.': at least one piece, no piece contains the separator, and joining the pieces gives the input back |
| Text.SplitJoin | nativeclient/src/configuration/python_version.rs:23 | splitting a join of separator-free pieces gives back exactly those pieces |
| Integers.NatToString | nativeclient/src/configuration/python_version.rs:50 | decimal `Display` of a natural number: non-empty digits, no leading zero, denoting the number |
| Integers.IntToString | nativeclient/src/configuration/python_version.rs:50 | `Display` of a signed integer: a leading minus sign exactly for negative numbers, digits otherwise |
| Integers.ParseInt32 | nativeclient/src/configuration/python_version.rs:26 | `parse::<i32>` accepts only an optional sign followed by at least one digit |
| Integers.ParseIntToString | nativeclient/src/configuration/python_version.rs:26-50 | parsing the printed form of any `i32` gives that integer back |
| Integers.ParseRejectsMissingDigits | nativeclient/src/configuration/python_version.rs:13-26 | the empty string and a lone sign do not parse as integers |
| PythonVersions.ParseVersion | nativeclient/src/configuration/python_version.rs:22-45 | `PythonVersion::new` fails only with the integer-parse message or the shape message naming the input |
| PythonVersions.FromComponents | nativeclient/src/configuration/python_version.rs:24-44 | the match on the number of pieces fails only with one of the two error messages |
| PythonVersions.FromComponentsSpec | nativeclient/src/configuration/python_version.rs:24-44 | succeeds iff there are at most three pieces and each is an `i32`; the components are the parsed pieces, with missing trailing ones zero; four or more pieces give the shape error; otherwise a failure is the integer-parse error |
| PythonVersions.ParseVersionSpec | nativeclient/src/configuration/python_version.rs:13-45 | the same characterisation, stated on the input string's pieces between dots |
| PythonVersions.DotFree | nativeclient/src/configuration/python_version.rs:50 | a printed integer contains no dot |
| PythonVersions.FormatSplits | nativeclient/src/configuration/python_version.rs:48-51 | the printed version splits on dots into exactly its three printed components |
| PythonVersions.ParseFormat | nativeclient/src/configuration/python_version.rs:22-51 | round trip: parsing what `Display` prints gives the same version |
| PythonVersions.ParseShortForms | nativeclient/src/configuration/python_version.rs:25-34 | "X" parses to (X, 0, 0) and "X.Y" to (X, Y, 0) |
| PythonVersions.ShortFormPrintsThreeComponents | nativeclient/src/configuration/python_version.rs:30-51 | a two-component version prints with an explicit ".0", so "3.8" prints as "3.8.0" |
| PythonVersions.EmptyIsInvalid | nativeclient/src/configuration/python_version.rs:13-29 | the empty string is not a version: it fails with the integer-parse error |
| SitePackages.StrategyFromString | nativeclient/src/configuration/site_packages.rs:8-16 | "none", "all" and "pep561" map to NONE, ALL and PEP561, each in both directions |
| SitePackages.DefaultStrategy | nativeclient/src/configuration/site_packages.rs:18-22 | the default strategy is the one named "none" |
| SitePackages.StrategyFromStringInjective | nativeclient/src/configuration/site_packages.rs:10-14 | distinct names map to distinct strategies |
| SitePackages.UpperCaseIsNotAName | nativeclient/src/configuration/site_packages.rs:10-14 | the names are case-sensitive: "None", "ALL" and "PEP561" are not accepted |
| Sorting.LexLeTotal | nativeclient/src/configuration/search_path.rs:39 | the string order used by `sort` is total |
| Sorting.LexLeTransitive | nativeclient/src/configuration/search_path.rs:39 | the string order is transitive |
| Sorting.LexLeAntisymmetric | nativeclient/src/configuration/search_path.rs:39 | the string order is antisymmetric |
| Sorting.Insert | nativeclient/src/configuration/search_path.rs:39 | inserting into a sorted sequence keeps it sorted and adds exactly that element |
| Sorting.Sort | nativeclient/src/configuration/search_path.rs:39 | `sort` yields a sorted permutation of its input |
| FileSystem.JoinPath | nativeclient/src/filesystem.rs:9 | `Path::join`: an absolute second path replaces the first; a relative one is appended to a non-empty first path with exactly one separator between them |
| FileSystem.ExpandRelativePath | nativeclient/src/filesystem.rs:3-11 | the intended `expand_relative_path`: the canonical form of `path` read relative to `root` (see Findings) |
| FileSystem.ExpandAbsoluteIgnoresRoot | nativeclient/src/filesystem.rs:3-6 | an absolute path expands to its canonical form, whatever the root |
| FileSystem.ExpandRelativePathIdempotent | nativeclient/src/filesystem.rs:3-11 | with a well-formed canonicalisation an expanded path is absolute, has no `//` marker, and expands to itself against any root |
| FileSystem.ExpandRelativePathAsWritten | nativeclient/src/filesystem.rs:3-11 | `expand_relative_path` as written: the canonical form of `path` against the working directory |
| FileSystem.AsWrittenIgnoresRoot | nativeclient/src/filesystem.rs:3-11 | as written, the result is the same for every `root` |
| FileSystem.AsWrittenDiffersFromIntended | nativeclient/src/filesystem.rs:3-11 | with the project at "/proj" and the process in "/home", "src" should expand to "/proj/src" but as written expands to "/home/src" |
| FileSystem.ExpandGlobalRoot | nativeclient/src/filesystem.rs:14-19 | a path not starting with `//` is returned unchanged; a `//` path has exactly two characters dropped and is expanded against the global root |
| FileSystem.SingleSlashIsNotGlobal | nativeclient/src/filesystem.rs:15 | an ordinary absolute path with one leading slash is returned unchanged |
| FileSystem.GlobalRootExample | nativeclient/src/filesystem.rs:14-19 | "//sub/dir" under "/proj" becomes the canonical "/proj/sub/dir", and "rel/dir" stays as it is |
| FileSystem.Render | nativeclient/src/find_directories.rs:20 | a directory's string form is absolute: an empty first piece followed by the components, joined by separators |
| FileSystem.Components | nativeclient/src/configuration/configuration.rs:482-484 | the normal components of a path are names, and a piece between separators occurs among them iff it is neither empty nor "."; order and multiplicity come from `FilterOne` and `FilterAppend` |
| FileSystem.FilterOne | nativeclient/src/configuration/configuration.rs:482-484 | a single piece is kept exactly when it is neither empty nor "." |
| FileSystem.FilterAppend | nativeclient/src/configuration/configuration.rs:482-484 | the filter works piece by piece: filtering `a ++ b` gives the kept pieces of `a`, in order, followed by those of `b` |
| FileSystem.ComponentsRender | nativeclient/src/find_directories.rs:20 | round trip: reading the components of a rendered directory of names gives the directory back |
| FileSystem.ComponentsOfJoin | nativeclient/src/configuration/configuration.rs:536 | names joined by separators read back as the same components |
| FileSystem.JoinDir | nativeclient/src/configuration/configuration.rs:482-484 | collecting `[base, path]` into a path: an absolute `path` gives its own components; a relative one gives `base` followed by its components |
| FileSystem.JoinNameAgrees | nativeclient/src/configuration/configuration.rs:482-484 | joining a name onto a directory gives the same path as a string (`Path::join` on the rendered form) and as components |
| FindDirectories.AsUsize | nativeclient/src/find_directories.rs:26 | `stop as usize`: a non-negative bound is kept; a negative one wraps to n + 2^64, which is at least 2^64 - 2^31 |
| FindDirectories.Ancestor | nativeclient/src/find_directories.rs:13 | the i-th entry of `ancestors()` is a prefix of `base`, i components shorter |
| FindDirectories.LastExamined | nativeclient/src/find_directories.rs:23-30 | without a bound every ancestor up to the filesystem root is examined; with a bound the walk stops after the smaller of the wrapped bound and the distance to the root |
| FindDirectories.SearchFrom | nativeclient/src/find_directories.rs:13-32 | the loop from index i finds the first examined ancestor whose candidate satisfies the predicate, or reports that none of the examined ones does |
| FindDirectories.FindParentDirectoryContaining | nativeclient/src/find_directories.rs:7-33 | a result is an examined ancestor-or-self of `base` satisfying the predicate with no nearer one satisfying it; `None` iff no examined ancestor satisfies it |
| FindDirectories.FindParentDirectoryContainingFile | nativeclient/src/find_directories.rs:41-52 | the same, with "an existing file" as the predicate |
| FindDirectories.BoundedSearchStops | nativeclient/src/find_directories.rs:23-30 | with a bound k >= 0, a match above the k nearest parents is not found |
| FindDirectories.NegativeBoundIsUnbounded | nativeclient/src/find_directories.rs:26 | a negative bound searches as if there were none |
| FindDirectories.SearchIgnoresUnreachedBound | nativeclient/src/find_directories.rs:23-30 | a bound beyond the filesystem root changes nothing |
| FindDirectories.FindGlobalAndLocalRoot | nativeclient/src/find_directories.rs:65-93 | `None` iff no ancestor-or-self holds `.pyre_configuration`; the global root is the nearest one; the local root is kept iff the nearest local root exists and is not the global root or above it |
| FindDirectories.PrefixesComparable | nativeclient/src/find_directories.rs:77-80 | two ancestors of one directory are ordered by the prefix relation |
| FindDirectories.LocalRootBelowGlobalRoot | nativeclient/src/find_directories.rs:65-93 | a kept local root lies strictly below the global root, and both are ancestors of the base |
| FindDirectories.GetRelativeLocalRoot | nativeclient/src/find_directories.rs:95-100 | `None` maps to `None`; a local root below the global root yields the rest of its path; any other local root yields `None` |
| FindDirectories.RelativeLocalRootOfAppend | nativeclient/src/find_directories.rs:95-100 | for local = global ++ r the relative local root is r |
| FindDirectories.FoundLocalRootHasRelativeForm | nativeclient/src/find_directories.rs:65-100 | whenever discovery keeps a local root, its relative form exists, is non-empty, and leads from the global root to it |
| FindExamples.NestedLocalExample | nativeclient/src/find_directories.rs:65-93 | from /a/b/c with /a/.pyre_configuration and /a/b/.pyre_configuration.local, the global root is /a and the local root is /a/b |
| FindExamples.InvertedLocalExample | nativeclient/src/find_directories.rs:76-84 | a local configuration above the global one is dropped |
| SearchPath.ExpandRelativeRootPath | nativeclient/src/configuration/search_path.rs:4-10 | `_expand_relative_root`: a `//` path is unchanged; any other path is expanded against the relative root |
| SearchPath.ExpandElementGlobalRoot | nativeclient/src/configuration/search_path.rs:25-29 | only the element's root changes, through `expand_global_root` |
| SearchPath.ExpandElementRelativeRoot | nativeclient/src/configuration/search_path.rs:31-35 | only the element's root changes, through `_expand_relative_root` |
| SearchPath.ExpandRelativeThenGlobal | nativeclient/src/configuration/search_path.rs:4-35 | relative then global expansion sends a `//x` entry to x under the global root, and any other entry to its place under the relative root |
| SearchPath.GlobalMarkerSurvivesRelativeExpansion | nativeclient/src/configuration/search_path.rs:4-35 | "//x" expanded relatively and then globally is x expanded against the global root |
| SearchPath.ExpandElementRelativeRootIdempotent | nativeclient/src/configuration/search_path.rs:31-35 | an element expanded at one layer is unchanged by expanding it at another |
| SearchPath.ExpandGlob | nativeclient/src/configuration/search_path.rs:37-46 | one element per match, in sorted order, a permutation of the matches; empty with a warning exactly when nothing matches |
| SearchPath.Roots | nativeclient/src/configuration/search_path.rs:41 | the roots of a sequence of elements, in order |
| SearchPath.FromRoots | nativeclient/src/configuration/search_path.rs:41 | wrapping paths as elements and taking their roots gives the paths back |
| SearchPath.ToElement | nativeclient/src/configuration/search_path.rs:58-71 | `to_element` keeps the root, and both `path()` and `command_line_argument()` return it |
| JsonValues.Lookup | nativeclient/src/configuration/configuration.rs:234 | `pop` finds a value exactly when the key is present, and that member is in the document |
| JsonValues.Without | nativeclient/src/configuration/configuration.rs:360-377 | removing popped keys keeps exactly the members with other keys |
| JsonValues.WithoutKeepsDistinct | nativeclient/src/configuration/configuration.rs:372 | removing keys keeps the keys distinct |
| PartialConfig.FromCommandArguments | nativeclient/src/configuration/configuration.rs:152-219 | `strict` is `Some(true)` when set and `None` otherwise; empty targets become `None`; the build mode, when given, is that single mode; the IDE group exists iff a toggle was given and carries all four; file-only settings are unset or empty; shared memory is copied; source directories are always present, in order; an invalid Python version is the error |
| PartialConfig.ExpandOptionalPath | nativeclient/src/configuration/configuration.rs:387-390 | an optional path is expanded when present and stays absent otherwise |
| PartialConfig.ExpandPaths | nativeclient/src/configuration/configuration.rs:419-422 | a path list keeps its length and order, each entry expanded |
| PartialConfig.ExpandElements | nativeclient/src/configuration/configuration.rs:441-444 | an element list keeps its length and order, each element expanded at its root |
| PartialConfig.ExpandRelativePaths | nativeclient/src/configuration/configuration.rs:386-458 | only path fields change: optional paths when present, path lists element-wise, and of the unwatched dependency only the files' root; with the path fields put back the layer is unchanged |
| PartialConfig.ExpandPathsIdempotent | nativeclient/src/configuration/configuration.rs:419-422 | an expanded path list is unchanged by expanding it again |
| PartialConfig.ExpandElementsIdempotent | nativeclient/src/configuration/configuration.rs:441-444 | an expanded element list is unchanged by expanding it again |
| PartialConfig.ExpandRelativePathsIdempotent | nativeclient/src/configuration/configuration.rs:386-458 | an expanded layer is unchanged by expanding it again against any directory |
| ConfigDecode.EnsureOptionType | nativeclient/src/configuration/configuration.rs:229-245 | a missing or null value gives `None`; a value of the expected type is returned; any other value is an error naming the field, the expected type and the value |
| ConfigDecode.OptionalString | nativeclient/src/configuration/configuration.rs:229-245 | the string case of `ensure_option_type`, unwrapped: succeeds exactly when it does, a present value is that string, and a failure is the type error naming the field, the string type and the value |
| ConfigDecode.OptionalInt | nativeclient/src/configuration/configuration.rs:229-245 | the integer case of `ensure_option_type`, unwrapped: succeeds exactly when it does, a present value is that integer, and a failure is the type error naming the field, the integer type and the value |
| ConfigDecode.OptionalBool | nativeclient/src/configuration/configuration.rs:229-245 | the boolean case of `ensure_option_type`, unwrapped: succeeds exactly when it does, a present value is that boolean, and a failure is the type error naming the field, the boolean type and the value |
| ConfigDecode.Strings | nativeclient/src/configuration/configuration.rs:222-227 | the strings of a list of strings, element for element |
| ConfigDecode.EnsureStringList | nativeclient/src/configuration/configuration.rs:286-302 | a missing key is `[]`; a lone string becomes `[s]` only when single strings are allowed, otherwise an error; a list of strings is returned; anything else is an error |
| ConfigDecode.EnsureOptionalStringList | nativeclient/src/configuration/configuration.rs:272-284 | missing or null is `None`; otherwise it succeeds iff the value is a list of strings, returning exactly that list |
| ConfigDecode.EnsureOptionalStringOrStringDict | nativeclient/src/configuration/configuration.rs:247-270 | missing or null is `None`; a string is one build mode; an object succeeds iff all its values are strings, keeping its members in order; anything else is an error |
| ConfigDecode.StringPairs | nativeclient/src/configuration/configuration.rs:256-264 | the key and string value of each member, in order |
| ConfigDecode.EnsureList | nativeclient/src/configuration/configuration.rs:304-313 | a missing key is `[]`; an array gives its items; anything else is an error |
| ConfigDecode.PopDecodedKeys | nativeclient/src/configuration/configuration.rs:317-358 | each decoded field gets what `pop` finds under its own key, a value exactly when the key is in the document |
| ConfigDecode.DecodeValues | nativeclient/src/configuration/configuration.rs:317-358 | decoding succeeds iff every field's helper succeeds; a failure names a decoded field; each field holds its helper's result; the settings decoded elsewhere are passed through |
| ConfigDecode.DecodeValuesFirstError | nativeclient/src/configuration/configuration.rs:317-358 | a failed decode carries the error of the first helper, in the source's field order, that fails |
| ConfigDecode.DecodeFields | nativeclient/src/configuration/configuration.rs:317-358 | the same stated on the document: each field is fed by the member under its key, among them `workers`, `exclude`, `critical_files`, `pysa_version` and `version` for number_of_workers, excludes, other_critical_files, pysa_version_hash and version_hash |
| ConfigDecode.DecodeFieldsFirstError | nativeclient/src/configuration/configuration.rs:317-358 | a failed decode of a document carries the error of the first field, in the source's order, whose member has the wrong type |
| ConfigDecode.WorkersMustBeInteger | nativeclient/src/configuration/configuration.rs:337 | `{"workers": "four"}` fails with the type error for `workers`, expecting an integer and naming the string value |
| ConfigDecode.UnrecognizedWarnings | nativeclient/src/configuration/configuration.rs:371-377 | every warning is about a leftover key that is not an accepted extra key |
| ConfigDecode.UnrecognizedWarningsCount | nativeclient/src/configuration/configuration.rs:371-377 | over distinct keys, each leftover non-extra key is warned about exactly once and no other key is |
| ConfigDecode.KeyDiagnostics | nativeclient/src/configuration/configuration.rs:360-370 | the deprecation warning pointing `do_not_check` at `ignore_all_errors` appears iff that key is present; every other warning is about a key that is neither decoded, deprecated nor extra |
| ConfigDecode.KeyDiagnosticsCount | nativeclient/src/configuration/configuration.rs:371-377 | each key that is not decoded, deprecated or extra gets exactly one "unrecognized" warning; recognized keys, extra keys and `do_not_check` get none |
| ConfigDecode.FromString | nativeclient/src/configuration/configuration.rs:221-380 | decoding succeeds iff the fields decode; the warnings are the key diagnostics; a failure is the field error |
| ConfigDecode.DeprecatedValueNotMigrated | nativeclient/src/configuration/configuration.rs:361-370 | the value of `do_not_check` is not migrated: adding that member leaves the decoded settings unchanged |
| ConfigDecode.PopIgnoresDeprecated | nativeclient/src/configuration/configuration.rs:361-370 | appending a `do_not_check` member changes none of the popped field values |
| ConfigDecode.LookupAppendOther | nativeclient/src/configuration/configuration.rs:234 | appending a member with another key does not change what `pop` finds |
| ConfigAssembly.ResolveSearchPath | nativeclient/src/configuration/configuration.rs:85-88 | one entry per element, each its root expanded against the project root |
| ConfigAssembly.FromPartialConfiguration | nativeclient/src/configuration/configuration.rs:58-103 | `strict` and `use_buck2` hold only when set to true; the search strategy defaults to NONE; the log directory defaults to `.pyre` under the project root; each search-path entry goes through `expand_global_root`; all other fields and the relative local root are copied |
| ConfigAssembly.NoGlobalMarkerRemains | nativeclient/src/configuration/configuration.rs:85-88 | with a well-formed canonicalisation no resolved search-path entry still starts with `//` |
| ConfigAssembly.DefaultLogDirectoryUnderProjectRoot | nativeclient/src/configuration/configuration.rs:67-69 | the default log directory is strictly inside the project root's string |
| ConfigAssembly.FromFile | nativeclient/src/configuration/configuration.rs:382-384 | an unreadable file is an error; otherwise its contents are decoded |
| ConfigAssembly.SearchBase | nativeclient/src/configuration/configuration.rs:479-488 | without a local configuration the search starts at the base directory; an absolute one replaces it by its components; a relative one extends it by its components |
| ConfigAssembly.CheckExplicitLocalRoot | nativeclient/src/configuration/configuration.rs:491-508 | fails iff a local configuration was requested and discovery found no global root or no local root; the error names the missing file and the search base |
| ConfigAssembly.RelativeRootString | nativeclient/src/configuration/configuration.rs:536 | the recorded relative root exists exactly when the relative path does, is its components joined by separators, and reads back as those components |
| ConfigAssembly.RelativeRootExactlyWhenLocal | nativeclient/src/configuration/configuration.rs:533-544 | a relative local root exists exactly when discovery kept a local root |
| ConfigAssembly.FileLayers | nativeclient/src/configuration/configuration.rs:523-544 | an unreadable or malformed global file is the error; otherwise the global layer is anchored at the project root, and a local layer, anchored at the local root, is merged over it; warnings of both files are kept |
| ConfigAssembly.CreateConfiguration | nativeclient/src/configuration/configuration.rs:475-555 | a requested local configuration without a global root, or without a local root, is an error naming the missing file; next a command line that does not decode is the error; next a project file that does not decode fails the whole resolution, and a success means every project file decoded; otherwise the command line is merged over the file layers with the global root as project root; without a project the working directory is the project root; a relative local root is recorded iff a local root was found |
| ConfigAssembly.NoProjectUsesCommandLineOnly | nativeclient/src/configuration/configuration.rs:515-554 | with no project and no requested local configuration, the result is the command-line layer anchored at the working directory, resolved with the working directory as project root |
| ConfigAssembly.CommandLineStrictResolves | nativeclient/src/configuration/configuration.rs:515-522 | with the command line as the only layer, the resolved `strict` is the command-line flag |
| ConfigAssembly.GlobalOnlyLayer | nativeclient/src/configuration/configuration.rs:523-554 | in a project with a global root only, whose file and command line decode, the command line is merged over the global layer anchored at the project root, no relative local root is recorded, and the file's warnings are kept |
| ConfigAssembly.BrokenGlobalFileFails | nativeclient/src/configuration/configuration.rs:525-532 | a global configuration file that does not decode fails resolution with its own error |
| ConfigAssembly.LayersMergeInOrder | nativeclient/src/configuration/configuration.rs:523-554 | in a project with a local root whose two files and command line decode, resolution succeeds; the layers merge global, then local, then command line, and the relative local root leads from the global root to the local root |
| Check.FromIoError | nativeclient/src/check.rs:11-15 | every I/O error reads "I/O error" |
| Check.CheckArguments | nativeclient/src/check.rs:44-46 | the argv is the binary, `newcheck`, and the argument file |
| Check.CheckCommand | nativeclient/src/check.rs:43-66 | an I/O failure gives "I/O error"; a failed status gives "Command failed"; a successful status gives Ok iff no type errors are decoded, "Had some type errors" otherwise |
| Check.OnlyTheCheckCommandRuns | nativeclient/src/check.rs:44-49 | the outcome depends only on what running that one argv gives |
| Check.FailedCommandIgnoresOutput | nativeclient/src/check.rs:50-54 | a failed command is reported whatever its output would decode to |
| Check.OnlyErrorPresenceMatters | nativeclient/src/check.rs:57-65 | on success only whether any type errors were decoded matters |

## Left out

- `PartialConfiguration::merge` (nativeclient/src/configuration/configuration.rs:468-473) is not defined in the source, so it is a parameter. No override policy is assumed.
- `platform_aware::from_json` for `buck_mode` and `ExtensionElement.from_json` are not shown. A build-mode value is kept as a string or as per-platform pairs. Extensions are kept as raw JSON values.
- The decoders for `dot_pyre_directory`, `ide_features`, `python_version`, `search_path`, `shared_memory`, `site_package_search_strategy`, `source_directories` and `unwatched_dependency` are not shown. Their results come in through `DecodedElsewhere`, and their keys count as consumed.
- JSON text parsing (`serde_json::from_str`) is left out. A file's contents are given already parsed.
- Canonicalisation, glob matching, `is_file`, file reading and `current_dir` are parameters. A failing `canonicalize` or an invalid UTF-8 path panics in the source and is not modelled.
- Spawning and waiting for the child process are one `Runner` parameter. Decoding its standard output is a `ResponseParser` parameter. Printing the status and the type errors is left out.
- `println!` warnings are not printed. They are returned as a list of `Warning` values.
- The duplicate `todo!()` fields at nativeclient/src/configuration/configuration.rs:459-463 are left out. They are leftovers.
- command_arguments.rs is not part of this model. It only declares the command-line flags, so `CommandArguments` is an input record. That record includes `enable_find_all_references`, which configuration.rs:171 reads but command_arguments.rs does not declare.
- main.rs is not part of this model. It only wires the pieces together.
- ide_features.rs, shared_memory.rs and unwatched.rs hold plain records, which appear here as datatypes. Their JSON conversions are not part of this model.
- ConfigDecode.EnsureOptionType: a boolean is not treated as an integer. Python's `isinstance(True, int)` holds, but a JSON integer and a JSON boolean are kept apart here.
- SitePackages.StrategyFromString: requires one of the three names. The source's `match` has no arm for any other string.
- SearchPath.ExpandGlob: sorts matches by their string form, which is what `sort` on strings does.
- FileSystem.Components: drops empty and "." components, as `PathBuf` does. It does not resolve "..".
- PartialConfig.FromCommandArguments: integer flags (workers and the shared-memory knobs) are unbounded integers, not `i32`.
- PartialConfig.FromCommandArguments: the command-line `buck_mode` is a single mode, not decoded through `platform_aware::from_json`.
- PartialConfig.FromCommandArguments: an absent `buck_mode` flag gives `None`. The source always sets `Some(from_json(arguments.buck_mode, ...))` (configuration.rs:184), and what `from_json` makes of a missing value is not shown.
- JsonValues.Lookup: finds the first member under a key. A decoded JSON object keeps the last of repeated keys, so documents with a repeated key do not stand for decoded objects. The warning counts assume distinct keys (`DistinctKeys`); the decoding does not require it.
- Discovery assumes an absolute base directory: a `Dir` is read from the filesystem root, so the walk always ends at "/". `Path::ancestors` on a relative base stops at its first component.
- Check.CheckCommand: standard output that is not UTF-8 (check.rs:56), or that does not decode as a JSON list of type errors (check.rs:33), panics in the source. Here the output is always a string and the `ResponseParser` is total, so those panics are not modelled.
- ConfigDecode.DecodeValues: `workers` from a configuration file decodes to an unbounded integer, not to the source's `i32` (configuration.rs:37), so values outside the `i32` range are not rejected.
- Integers.ParseInt32: states only the shape of what it accepts. Its inverse is stated by Integers.ParseIntToString.

## Findings

| source | as written | input that shows it | evidently intended | confidence | as-written member | corrected member |
|---|---|---|---|---|---|---|
| nativeclient/src/filesystem.rs:3-11 | `expand_relative_path` canonicalizes `path` by itself, which resolves it against the process's working directory; `root` is never used | root "/proj", working directory "/home", path "src": as written "/home/src" | "/proj/src": the path read relative to `root`, then canonicalized | not executed | FileSystem.AsWrittenDiffersFromIntended | FileSystem.ExpandRelativePath |

=== FILE: check.dfy ===
/** The outcome of `check_command`: run the type checker on an argument
    file and classify what came back.  Running the child process and
    decoding its output are parameters. */
module Check {
  import opened Wrappers
  import opened Integers

  datatype CheckError = CheckError(msg: string)

  /** Any failure to spawn the child or to wait for it. */
  datatype IoError = IoError(description: string)

  /** `From<io::Error> for CheckError`: every I/O failure reads the same. */
  function FromIoError(e: IoError): (r: CheckError)
    ensures r == CheckError("I/O error")
  {
    CheckError("I/O error")
  }

  /** One reported type error, as the checker prints it. */
  datatype TypeError = TypeError(
    line: Int32,
    column: Int32,
    stopLine: Int32,
    stopColumn: Int32,
    path: string,
    code: Int32,
    name: string,
    description: string,
    longDescription: string,
    conciseDescription: string)

  /** What the finished child left: whether its exit status was a success,
      and its standard output. */
  datatype ChildOutput = ChildOutput(success: bool, stdout: string)

  /** Runs a command line to completion. */
  type Runner = seq<string> -> Result<ChildOutput, IoError>

  /** Decodes the checker's standard output into its list of errors. */
  type ResponseParser = string -> seq<TypeError>

  /** The command line: the checker binary, its `newcheck` subcommand, and
      the argument file. */
  function CheckArguments(binaryLocation: string, argumentFilePath: string): (argv: seq<string>)
    ensures |argv| == 3 && argv[0] == binaryLocation && argv[2] == argumentFilePath
    ensures argv[1] == "newcheck"
  {
    [binaryLocation, "newcheck", argumentFilePath]
  }

  /** `check_command`. */
  function CheckCommand(binaryLocation: string, argumentFilePath: string,
                        run: Runner, parse: ResponseParser): (r: Result<(), CheckError>)
    ensures var output := run(CheckArguments(binaryLocation, argumentFilePath));
      && (output.Failure? ==> r == Failure(CheckError("I/O error")))
      // a failed run is reported before its output is looked at
      && (output.Success? && !output.value.success ==> r == Failure(CheckError("Command failed")))
      && (output.Success? && output.value.success ==>
            (r.Success? <==> |parse(output.value.stdout)| == 0))
      && (output.Success? && output.value.success && |parse(output.value.stdout)| > 0 ==>
            r == Failure(CheckError("Had some type errors")))
  {
    match run(CheckArguments(binaryLocation, argumentFilePath))
    case Failure(e) => Failure(FromIoError(e))
    case Success(output) =>
      if !output.success then Failure(CheckError("Command failed"))
      else
        var typeErrors := parse(output.stdout);
        if |typeErrors| == 0 then Success(())
        else Failure(CheckError("Had some type errors"))
  }

  /** The only command line run is the checker's: two runners that agree on
      it give the same outcome. */
  lemma OnlyTheCheckCommandRuns(binaryLocation: string, argumentFilePath: string,
                                run1: Runner, run2: Runner, parse: ResponseParser)
    requires run1(CheckArguments(binaryLocation, argumentFilePath)) == run2(CheckArguments(binaryLocation, argumentFilePath))
    ensures CheckCommand(binaryLocation, argumentFilePath, run1, parse)
         == CheckCommand(binaryLocation, argumentFilePath, run2, parse)
  {
  }

  /** A failed command is reported whatever it printed and however its
      output would decode. */
  lemma FailedCommandIgnoresOutput(binaryLocation: string, argumentFilePath: string,
                                   run: Runner, parse1: ResponseParser, parse2: ResponseParser)
    requires run(CheckArguments(binaryLocation, argumentFilePath)).Success?
    requires !run(CheckArguments(binaryLocation, argumentFilePath)).value.success
    ensures CheckCommand(binaryLocation, argumentFilePath, run, parse1)
         == CheckCommand(binaryLocation, argumentFilePath, run, parse2)
         == Failure(CheckError("Command failed"))
  {
  }

  /** On a successful run only the number of errors matters: two outputs
      decoding to equally many errors, both none or both some, give the same
      outcome. */
  lemma OnlyErrorPresenceMatters(binaryLocation: string, argumentFilePath: string,
                                 run: Runner, parse1: ResponseParser, parse2: ResponseParser)
    requires run(CheckArguments(binaryLocation, argumentFilePath)).Success?
    requires var out := run(CheckArguments(binaryLocation, argumentFilePath)).value;
      (|parse1(out.stdout)| == 0) == (|parse2(out.stdout)| == 0)
    ensures CheckCommand(binaryLocation, argumentFilePath, run, parse1)
         == CheckCommand(binaryLocation, argumentFilePath, run, parse2)
  {
  }
}

=== FILE: configuration_assembly.dfy ===
/** The resolved `Configuration` and `create_configuration`: discovery of the
    project, the layers read from the global and local configuration files
    and from the command line, their merge, and the defaults that turn the
    merged layer into the final settings. */
module ConfigAssembly {
  import opened Wrappers
  import opened Text
  import opened FileSystem
  import opened JsonValues
  import opened SearchPath
  import opened PythonVersions
  import opened SitePackages
  import opened Diagnostics
  import opened FindDirectories
  import opened PartialConfig
  import opened ConfigDecode

  /** Every setting resolved: defaults filled in and the search path
      anchored at the project root. */
  datatype Configuration = Configuration(
    projectRoot: string,
    dotPyreDirectory: string,
    binary: Option<string>,
    buckMode: Option<BuckMode>,
    doNotIgnoreErrorsIn: seq<string>,
    excludes: seq<string>,
    extensions: seq<Json>,
    ideFeatures: Option<IdeFeatures>,
    ignoreAllErrors: seq<string>,
    isolationPrefix: Option<string>,
    logger: Option<string>,
    numberOfWorkers: Option<int>,
    oncall: Option<string>,
    otherCriticalFiles: seq<string>,
    pysaVersionHash: Option<string>,
    pythonVersion: Option<PythonVersion>,
    relativeLocalRoot: Option<string>,
    searchPath: seq<string>,
    sharedMemory: SharedMemory,
    sitePackageSearchStrategy: SearchStrategy,
    siteRoots: Option<seq<string>>,
    sourceDirectories: Option<seq<RawElement>>,
    strict: bool,
    taintModelsPath: seq<string>,
    targets: Option<seq<string>>,
    typeshed: Option<string>,
    unwatchedDependency: Option<UnwatchedDependency>,
    useBuck2: bool,
    versionHash: Option<string>)

  /** The search path with every `//` entry resolved against the project root. */
  function ResolveSearchPath(canonicalize: Canonicalizer, projectRoot: string, elements: seq<RawElement>): (r: seq<string>)
    ensures |r| == |elements|
    ensures forall i :: 0 <= i < |elements| ==>
      r[i] == ExpandElementGlobalRoot(canonicalize, elements[i], projectRoot).root
  {
    seq(|elements|, i requires 0 <= i < |elements| => ExpandElementGlobalRoot(canonicalize, elements[i], projectRoot).root)
  }

  /** `Configuration::from_partial_configuration`. */
  function FromPartialConfiguration(canonicalize: Canonicalizer, projectRoot: string,
                                    relativeLocalRoot: Option<string>, p: PartialConfiguration): (r: Configuration)
    ensures r.projectRoot == projectRoot && r.relativeLocalRoot == relativeLocalRoot
    // the flags hold only when a layer set them
    ensures r.strict <==> p.strict == Some(true)
    ensures r.useBuck2 <==> p.useBuck2 == Some(true)
    // the search strategy falls back to the default one
    ensures p.sitePackageSearchStrategy.Some? ==> r.sitePackageSearchStrategy == p.sitePackageSearchStrategy.value
    ensures p.sitePackageSearchStrategy.None? ==> r.sitePackageSearchStrategy == DefaultStrategy()
    // the log directory falls back to `.pyre` under the project root
    ensures p.dotPyreDirectory.Some? ==> r.dotPyreDirectory == p.dotPyreDirectory.value
    ensures p.dotPyreDirectory.None? ==> r.dotPyreDirectory == JoinPath(projectRoot, LogDirectory)
    // one search-path entry per element, each resolved against the project root
    ensures |r.searchPath| == |p.searchPath|
    ensures forall i :: 0 <= i < |p.searchPath| ==>
      r.searchPath[i] == ExpandGlobalRoot(canonicalize, p.searchPath[i].root, projectRoot)
    // everything else as the layer had it
    ensures && r.binary == p.binary && r.buckMode == p.buckMode
            && r.doNotIgnoreErrorsIn == p.doNotIgnoreErrorsIn && r.excludes == p.excludes
            && r.extensions == p.extensions && r.ideFeatures == p.ideFeatures
            && r.ignoreAllErrors == p.ignoreAllErrors && r.isolationPrefix == p.isolationPrefix
            && r.logger == p.logger && r.numberOfWorkers == p.numberOfWorkers && r.oncall == p.oncall
            && r.otherCriticalFiles == p.otherCriticalFiles && r.pysaVersionHash == p.pysaVersionHash
            && r.pythonVersion == p.pythonVersion && r.sharedMemory == p.sharedMemory
            && r.siteRoots == p.siteRoots && r.sourceDirectories == p.sourceDirectories
            && r.taintModelsPath == p.taintModelsPath && r.targets == p.targets
            && r.typeshed == p.typeshed && r.unwatchedDependency == p.unwatchedDependency
            && r.versionHash == p.versionHash
  {
    Configuration(
      projectRoot := projectRoot,
      dotPyreDirectory := p.dotPyreDirectory.GetOr(JoinPath(projectRoot, LogDirectory)),
      binary := p.binary,
      buckMode := p.buckMode,
      doNotIgnoreErrorsIn := p.doNotIgnoreErrorsIn,
      excludes := p.excludes,
      extensions := p.extensions,
      ideFeatures := p.ideFeatures,
      ignoreAllErrors := p.ignoreAllErrors,
      isolationPrefix := p.isolationPrefix,
      logger := p.logger,
      numberOfWorkers := p.numberOfWorkers,
      oncall := p.oncall,
      otherCriticalFiles := p.otherCriticalFiles,
      pysaVersionHash := p.pysaVersionHash,
      pythonVersion := p.pythonVersion,
      relativeLocalRoot := relativeLocalRoot,
      searchPath := ResolveSearchPath(canonicalize, projectRoot, p.searchPath),
      sharedMemory := p.sharedMemory,
      sitePackageSearchStrategy := p.sitePackageSearchStrategy.GetOr(SearchStrategy.NONE),
      siteRoots := p.siteRoots,
      sourceDirectories := p.sourceDirectories,
      strict := p.strict.GetOr(false),
      taintModelsPath := p.taintModelsPath,
      targets := p.targets,
      typeshed := p.typeshed,
      unwatchedDependency := p.unwatchedDependency,
      useBuck2 := p.useBuck2.GetOr(false),
      versionHash := p.versionHash)
  }

  /** Once resolved, no search-path entry still carries the global-root
      marker: `//` entries became canonical paths, and the others never had it. */
  lemma NoGlobalMarkerRemains(canonicalize: Canonicalizer, projectRoot: string,
                              relativeLocalRoot: Option<string>, p: PartialConfiguration)
    requires WellFormedCanonicalizer(canonicalize)
    ensures var r := FromPartialConfiguration(canonicalize, projectRoot, relativeLocalRoot, p);
      forall i :: 0 <= i < |r.searchPath| ==> !StartsWith(r.searchPath[i], GlobalRootMarker)
  {
    var r := FromPartialConfiguration(canonicalize, projectRoot, relativeLocalRoot, p);
    forall i | 0 <= i < |r.searchPath|
      ensures !StartsWith(r.searchPath[i], GlobalRootMarker)
    {
      var path := p.searchPath[i].root;
      if StartsWith(path, GlobalRootMarker) {
        ExpandRelativePathIdempotent(canonicalize, projectRoot, projectRoot, path[2..]);
      }
    }
  }

  /** The default log directory lies under the project root. */
  lemma DefaultLogDirectoryUnderProjectRoot(canonicalize: Canonicalizer, projectRoot: string,
                                            relativeLocalRoot: Option<string>, p: PartialConfiguration)
    requires p.dotPyreDirectory.None? && projectRoot != ""
    ensures var r := FromPartialConfiguration(canonicalize, projectRoot, relativeLocalRoot, p);
      StartsWith(r.dotPyreDirectory, projectRoot) && |r.dotPyreDirectory| > |projectRoot|
  {
    var d := JoinPath(projectRoot, LogDirectory);
    assert !IsAbsolute(LogDirectory);
    if projectRoot[|projectRoot| - 1] == '/' {
      assert d == projectRoot + LogDirectory;
    } else {
      assert d == projectRoot + "/" + LogDirectory;
    }
  }

  // ----- create_configuration -----

  /** What a configuration file holds once parsed: the document and what the
      decoders outside configuration.rs made of it. */
  datatype FileContents = FileContents(document: Document, elsewhere: DecodedElsewhere)

  /** The part of the machine `create_configuration` looks at: which files
      exist, what the readable ones hold, and the working directory. */
  datatype Environment = Environment(
    files: set<FilePath>,
    contents: map<FilePath, FileContents>,
    cwd: string)

  /** `PartialConfiguration::from_file`: a file that cannot be read is an
      error; otherwise its contents are decoded. */
  function FromFile(env: Environment, path: FilePath): (r: Result<Decoded, ConfigurationError>)
    ensures path !in env.contents ==> r == Failure(UnreadableFile(path))
    ensures path in env.contents ==>
      r == FromString(env.contents[path].document, env.contents[path].elsewhere)
  {
    if path in env.contents then FromString(env.contents[path].document, env.contents[path].elsewhere)
    else Failure(UnreadableFile(path))
  }

  /** The merge of two layers, the second overriding the first; its policy is
      not part of this model. */
  type Merge = (PartialConfiguration, PartialConfiguration) -> PartialConfiguration

  /** The resolved settings and the warnings decoding the files produced. */
  datatype Resolved = Resolved(configuration: Configuration, warnings: seq<Warning>)

  /** Where discovery starts: the base directory, or the explicitly given
      local configuration directory read relative to it. */
  function SearchBase(arguments: CommandArguments, baseDirectory: Dir): (r: Dir)
    ensures arguments.localConfiguration.None? ==> r == baseDirectory
    ensures arguments.localConfiguration.Some? && IsAbsolute(arguments.localConfiguration.value) ==>
      r == Components(arguments.localConfiguration.value)
    ensures arguments.localConfiguration.Some? && !IsAbsolute(arguments.localConfiguration.value) ==>
      IsPrefix(baseDirectory, r) && r[|baseDirectory|..] == Components(arguments.localConfiguration.value)
  {
    match arguments.localConfiguration
    case None => baseDirectory
    case Some(local) => JoinDir(baseDirectory, local)
  }

  /** An explicitly given local configuration must be found: a global root
      with a local root below it. */
  function CheckExplicitLocalRoot(arguments: CommandArguments, searchBase: Dir, found: Option<FoundRoot>): (r: Result<(), ConfigurationError>)
    ensures r.Failure? <==> arguments.localConfiguration.Some? && (found.None? || found.value.localRoot.None?)
    ensures r.Failure? && found.None? ==> r.error == MissingConfiguration(ConfigurationFile, searchBase)
    ensures r.Failure? && found.Some? ==> r.error == MissingConfiguration(LocalConfigurationFile, searchBase)
  {
    if arguments.localConfiguration.None? then Success(())
    else if found.None? then Failure(MissingConfiguration(ConfigurationFile, searchBase))
    else if found.value.localRoot.None? then Failure(MissingConfiguration(LocalConfigurationFile, searchBase))
    else Success(())
  }

  /** The relative local root in the form the configuration records it:
      its components joined by separators. */
  function RelativeRootString(rel: Option<Dir>): (r: Option<string>)
    ensures r.Some? <==> rel.Some?
    ensures r.Some? ==> r.value == Join(rel.value, '/')
    // a path of names reads back as the same components
    ensures r.Some? && |rel.value| > 0 && AllNames(rel.value) ==> Components(r.value) == rel.value
  {
    match rel
    case None => None
    case Some(d) =>
      if |d| > 0 && AllNames(d) then ComponentsOfJoin(d); Some(Join(d, '/'))
      else Some(Join(d, '/'))
  }

  /** Discovery and the relative local root agree: one exists exactly when a
      local root was kept. */
  lemma RelativeRootExactlyWhenLocal(files: set<FilePath>, base: Dir)
    requires FindGlobalAndLocalRoot(files, base).Some?
    ensures var found := FindGlobalAndLocalRoot(files, base).value;
      GetRelativeLocalRoot(found.globalRoot, found.localRoot).Some? <==> found.localRoot.Some?
  {
    if FindGlobalAndLocalRoot(files, base).value.localRoot.Some? {
      FoundLocalRootHasRelativeForm(files, base);
    }
  }

  /** The file layers of a found project, each anchored at its own
      directory, the local one merged over the global one, together with the
      relative local root and the files' warnings. */
  function FileLayers(env: Environment, canonicalize: Canonicalizer, merge: Merge, found: FoundRoot)
    : (r: Result<(PartialConfiguration, Option<Dir>, seq<Warning>), ConfigurationError>)
    ensures var global := FromFile(env, found.globalRoot + [ConfigurationFile]);
      global.Failure? ==> r.Failure? && r.error == global.error
    ensures var global := FromFile(env, found.globalRoot + [ConfigurationFile]);
      global.Success? && found.localRoot.None? ==>
        r == Success((ExpandRelativePaths(canonicalize, global.value.configuration, Render(found.globalRoot)),
                      None, global.value.warnings))
    ensures var global := FromFile(env, found.globalRoot + [ConfigurationFile]);
      global.Success? && found.localRoot.Some? ==>
        var local := FromFile(env, found.localRoot.value + [LocalConfigurationFile]);
        && (local.Failure? ==> r.Failure? && r.error == local.error)
        && (local.Success? ==>
              r == Success((merge(ExpandRelativePaths(canonicalize, global.value.configuration, Render(found.globalRoot)),
                                  ExpandRelativePaths(canonicalize, local.value.configuration, Render(found.localRoot.value))),
                            GetRelativeLocalRoot(found.globalRoot, found.localRoot),
                            global.value.warnings + local.value.warnings)))
  {
    var projectRoot := Render(found.globalRoot);
    var global :- FromFile(env, found.globalRoot + [ConfigurationFile]);
    var globalLayer := ExpandRelativePaths(canonicalize, global.configuration, projectRoot);
    match found.localRoot
    case None => Success((globalLayer, None, global.warnings))
    case Some(localRoot) =>
      var local :- FromFile(env, localRoot + [LocalConfigurationFile]);
      var localLayer := ExpandRelativePaths(canonicalize, local.configuration, Render(localRoot));
      Success((merge(globalLayer, localLayer), GetRelativeLocalRoot(found.globalRoot, found.localRoot),
               global.warnings + local.warnings))
  }

  /** `create_configuration`. */
  function CreateConfiguration(env: Environment, canonicalize: Canonicalizer, merge: Merge,
                               arguments: CommandArguments, baseDirectory: Dir): (r: Result<Resolved, ConfigurationError>)
    ensures var searchBase := SearchBase(arguments, baseDirectory);
      var found := FindGlobalAndLocalRoot(env.files, searchBase);
      // an explicit local configuration that discovery cannot find is an error
      && (arguments.localConfiguration.Some? && found.None? ==>
            r == Failure(MissingConfiguration(ConfigurationFile, searchBase)))
      && (arguments.localConfiguration.Some? && found.Some? && found.value.localRoot.None? ==>
            r == Failure(MissingConfiguration(LocalConfigurationFile, searchBase)))
      // the project root is the global root, or the working directory without one
      && (r.Success? && found.None? ==>
            r.value.configuration.projectRoot == env.cwd && r.value.configuration.relativeLocalRoot.None?
            && r.value.warnings == [])
      && (r.Success? && found.Some? ==>
            r.value.configuration.projectRoot == Render(found.value.globalRoot))
      // a relative local root is recorded exactly when a local root was found
      && (r.Success? ==>
            (r.value.configuration.relativeLocalRoot.Some? <==> found.Some? && found.value.localRoot.Some?))
    ensures r.Success? && arguments.localConfiguration.Some? ==> r.value.configuration.relativeLocalRoot.Some?
    ensures r.Success? ==> FromCommandArguments(arguments).Success?
    // past the explicit-local check, a command line that does not decode is the error
    ensures var searchBase := SearchBase(arguments, baseDirectory);
      var found := FindGlobalAndLocalRoot(env.files, searchBase);
      CheckExplicitLocalRoot(arguments, searchBase, found).Success? && FromCommandArguments(arguments).Failure? ==>
        r == Failure(FromCommandArguments(arguments).error)
    // then a project file that does not decode fails the whole resolution
    ensures var searchBase := SearchBase(arguments, baseDirectory);
      var found := FindGlobalAndLocalRoot(env.files, searchBase);
      && found.Some? && CheckExplicitLocalRoot(arguments, searchBase, found).Success?
      && FromCommandArguments(arguments).Success?
      && FileLayers(env, canonicalize, merge, found.value).Failure? ==>
        r == Failure(FileLayers(env, canonicalize, merge, found.value).error)
    // no partial success: every file of the project decoded
    ensures var found := FindGlobalAndLocalRoot(env.files, SearchBase(arguments, baseDirectory));
      r.Success? && found.Some? ==>
        && FromFile(env, found.value.globalRoot + [ConfigurationFile]).Success?
        && (found.value.localRoot.Some? ==> FromFile(env, found.value.localRoot.value + [LocalConfigurationFile]).Success?)
    // otherwise the command line is merged over the file layers
    ensures var searchBase := SearchBase(arguments, baseDirectory);
      var found := FindGlobalAndLocalRoot(env.files, searchBase);
      && found.Some? && CheckExplicitLocalRoot(arguments, searchBase, found).Success?
      && FromCommandArguments(arguments).Success?
      && FileLayers(env, canonicalize, merge, found.value).Success? ==>
        var (fileLayer, rel, warnings) := FileLayers(env, canonicalize, merge, found.value).value;
        r == Success(Resolved(
               FromPartialConfiguration(canonicalize, Render(found.value.globalRoot), RelativeRootString(rel),
                 merge(fileLayer, ExpandRelativePaths(canonicalize, FromCommandArguments(arguments).value, env.cwd))),
               warnings))
  {
    var searchBase := SearchBase(arguments, baseDirectory);
    var found := FindGlobalAndLocalRoot(env.files, searchBase);
    var _ :- CheckExplicitLocalRoot(arguments, searchBase, found);
    var commandLine :- FromCommandArguments(arguments);
    var commandLineLayer := ExpandRelativePaths(canonicalize, commandLine, env.cwd);
    match found
    case None =>
      Success(Resolved(FromPartialConfiguration(canonicalize, env.cwd, None, commandLineLayer), []))
    case Some(root) =>
      var layers :- FileLayers(env, canonicalize, merge, root);
      var (fileLayer, relativeLocalRoot, warnings) := layers;
      RelativeRootExactlyWhenLocal(env.files, searchBase);
      Success(Resolved(FromPartialConfiguration(canonicalize, Render(root.globalRoot),
                                                RelativeRootString(relativeLocalRoot), merge(fileLayer, commandLineLayer)),
                       warnings))
  }

  /** Without a project and without an explicit local configuration, the
      working directory is the project root and the command line, anchored
      there, is the only layer. */
  lemma NoProjectUsesCommandLineOnly(env: Environment, canonicalize: Canonicalizer, merge: Merge,
                                     arguments: CommandArguments, baseDirectory: Dir)
    requires arguments.localConfiguration.None?
    requires FindGlobalAndLocalRoot(env.files, baseDirectory).None?
    requires FromCommandArguments(arguments).Success?
    ensures CreateConfiguration(env, canonicalize, merge, arguments, baseDirectory)
         == Success(Resolved(FromPartialConfiguration(canonicalize, env.cwd, None,
              ExpandRelativePaths(canonicalize, FromCommandArguments(arguments).value, env.cwd)), []))
  {
  }

  /** With the command line as the only layer, the resolved `strict` is the
      command-line flag. */
  lemma CommandLineStrictResolves(env: Environment, canonicalize: Canonicalizer, merge: Merge,
                                  arguments: CommandArguments, baseDirectory: Dir)
    requires arguments.localConfiguration.None?
    requires FindGlobalAndLocalRoot(env.files, baseDirectory).None?
    requires FromCommandArguments(arguments).Success?
    ensures var r := CreateConfiguration(env, canonicalize, merge, arguments, baseDirectory);
      r.Success? && r.value.configuration.strict == arguments.strict
  {
    NoProjectUsesCommandLineOnly(env, canonicalize, merge, arguments, baseDirectory);
    var layer := ExpandRelativePaths(canonicalize, FromCommandArguments(arguments).value, env.cwd);
    assert layer.strict == FromCommandArguments(arguments).value.strict;
  }

  /** In a project with a global root and no local root, the command line is
      merged over the global file's layer, which is anchored at the project
      root, and the file's warnings are kept. */
  lemma GlobalOnlyLayer(env: Environment, canonicalize: Canonicalizer, merge: Merge,
                        arguments: CommandArguments, baseDirectory: Dir)
    requires arguments.localConfiguration.None?
    requires var found := FindGlobalAndLocalRoot(env.files, baseDirectory);
      && found.Some? && found.value.localRoot.None?
      && FromFile(env, found.value.globalRoot + [ConfigurationFile]).Success?
    requires FromCommandArguments(arguments).Success?
    ensures var found := FindGlobalAndLocalRoot(env.files, baseDirectory).value;
      var global := FromFile(env, found.globalRoot + [ConfigurationFile]).value;
      CreateConfiguration(env, canonicalize, merge, arguments, baseDirectory)
      == Success(Resolved(
           FromPartialConfiguration(canonicalize, Render(found.globalRoot), None,
             merge(ExpandRelativePaths(canonicalize, global.configuration, Render(found.globalRoot)),
                   ExpandRelativePaths(canonicalize, FromCommandArguments(arguments).value, env.cwd))),
           global.warnings))
  {
  }

  /** A global configuration file that does not decode fails resolution with
      its own error, whatever the rest of the project holds. */
  lemma BrokenGlobalFileFails(env: Environment, canonicalize: Canonicalizer, merge: Merge,
                              arguments: CommandArguments, baseDirectory: Dir)
    requires arguments.localConfiguration.None?
    requires var found := FindGlobalAndLocalRoot(env.files, baseDirectory);
      found.Some? && FromFile(env, found.value.globalRoot + [ConfigurationFile]).Failure?
    requires FromCommandArguments(arguments).Success?
    ensures var found := FindGlobalAndLocalRoot(env.files, baseDirectory).value;
      CreateConfiguration(env, canonicalize, merge, arguments, baseDirectory)
      == Failure(FromFile(env, found.globalRoot + [ConfigurationFile]).error)
  {
  }

  /** In a project whose files and command line all decode, resolution
      succeeds, and the layers are merged global, then local, then command
      line, each file layer anchored at its own directory and the command
      line at the working directory. */
  lemma LayersMergeInOrder(env: Environment, canonicalize: Canonicalizer, merge: Merge,
                           arguments: CommandArguments, baseDirectory: Dir)
    requires var found := FindGlobalAndLocalRoot(env.files, SearchBase(arguments, baseDirectory));
      && found.Some? && found.value.localRoot.Some?
      && FromFile(env, found.value.globalRoot + [ConfigurationFile]).Success?
      && FromFile(env, found.value.localRoot.value + [LocalConfigurationFile]).Success?
    requires FromCommandArguments(arguments).Success?
    ensures var found := FindGlobalAndLocalRoot(env.files, SearchBase(arguments, baseDirectory)).value;
      var global := FromFile(env, found.globalRoot + [ConfigurationFile]).value;
      var local := FromFile(env, found.localRoot.value + [LocalConfigurationFile]).value;
      var commandLine := FromCommandArguments(arguments).value;
      var rel := GetRelativeLocalRoot(found.globalRoot, found.localRoot);
      && rel.Some? && found.globalRoot + rel.value == found.localRoot.value
      && CreateConfiguration(env, canonicalize, merge, arguments, baseDirectory)
         == Success(Resolved(
              FromPartialConfiguration(canonicalize, Render(found.globalRoot), Some(Join(rel.value, '/')),
                merge(merge(ExpandRelativePaths(canonicalize, global.configuration, Render(found.globalRoot)),
                            ExpandRelativePaths(canonicalize, local.configuration, Render(found.localRoot.value))),
                      ExpandRelativePaths(canonicalize, commandLine, env.cwd))),
              global.warnings + local.warnings))
  {
    FoundLocalRootHasRelativeForm(env.files, SearchBase(arguments, baseDirectory));
  }
}

=== FILE: configuration_decode.dfy ===
/** `PartialConfiguration::from_string`: typed "pop key" helpers over a
    decoded document, the fields they feed, and the deprecated-key and
    unrecognized-key diagnostics. */
module ConfigDecode {
  import opened Wrappers
  import opened JsonValues
  import opened SearchPath
  import opened PythonVersions
  import opened SitePackages
  import opened Diagnostics
  import opened PartialConfig

  predicate HasType(v: Json, t: JsonType) {
    match t
    case StringType => v.JString?
    case IntType => v.JInt?
    case BoolType => v.JBool?
  }

  /** A popped key counts as absent when missing or `null`. */
  predicate Absent(v: Option<Json>) {
    v.None? || v.value.JNull?
  }

  /** `ensure_option_type`. */
  function EnsureOptionType(name: string, popped: Option<Json>, t: JsonType): (r: Result<Option<Json>, ConfigurationError>)
    ensures r.Success? <==> Absent(popped) || HasType(popped.value, t)
    ensures r.Success? && r.value.None? <==> Absent(popped)
    ensures r.Success? && r.value.Some? ==> r.value == popped && HasType(r.value.value, t)
    ensures r.Failure? ==> r.error == FieldTypeError(name, TypeOf(t), popped.value)
  {
    var result := popped;
    if Absent(result) then Success(None)
    else if HasType(result.value, t) then Success(result)
    else Failure(FieldTypeError(name, TypeOf(t), result.value))
  }

  function OptionalString(name: string, popped: Option<Json>): (r: Result<Option<string>, ConfigurationError>)
    ensures r.Success? <==> EnsureOptionType(name, popped, StringType).Success?
    ensures r.Failure? ==> r.error == FieldTypeError(name, TypeOf(StringType), popped.value)
    ensures r.Success? && r.value.Some? ==> popped == Some(JString(r.value.value))
    ensures r.Success? && r.value.None? ==> Absent(popped)
  {
    var v :- EnsureOptionType(name, popped, StringType);
    Success(match v case None => None case Some(j) => Some(j.s))
  }

  function OptionalInt(name: string, popped: Option<Json>): (r: Result<Option<int>, ConfigurationError>)
    ensures r.Success? <==> EnsureOptionType(name, popped, IntType).Success?
    ensures r.Failure? ==> r.error == FieldTypeError(name, TypeOf(IntType), popped.value)
    ensures r.Success? && r.value.Some? ==> popped == Some(JInt(r.value.value))
    ensures r.Success? && r.value.None? ==> Absent(popped)
  {
    var v :- EnsureOptionType(name, popped, IntType);
    Success(match v case None => None case Some(j) => Some(j.i))
  }

  function OptionalBool(name: string, popped: Option<Json>): (r: Result<Option<bool>, ConfigurationError>)
    ensures r.Success? <==> EnsureOptionType(name, popped, BoolType).Success?
    ensures r.Failure? ==> r.error == FieldTypeError(name, TypeOf(BoolType), popped.value)
    ensures r.Success? && r.value.Some? ==> popped == Some(JBool(r.value.value))
    ensures r.Success? && r.value.None? ==> Absent(popped)
  {
    var v :- EnsureOptionType(name, popped, BoolType);
    Success(match v case None => None case Some(j) => Some(j.b))
  }

  /** `is_list_of_string`, as its comment describes it. */
  predicate IsListOfString(v: Json) {
    v.JArray? && forall i :: 0 <= i < |v.items| ==> v.items[i].JString?
  }

  function Strings(items: seq<Json>): (r: seq<string>)
    requires forall i :: 0 <= i < |items| ==> items[i].JString?
    ensures |r| == |items|
    ensures forall i :: 0 <= i < |items| ==> items[i] == JString(r[i])
  {
    seq(|items|, i requires 0 <= i < |items| => items[i].s)
  }

  /** `ensure_string_list`: a missing key is the empty list; a lone string is
      accepted as a one-element list only when `allowSingleString`. */
  function EnsureStringList(name: string, popped: Option<Json>, allowSingleString: bool): (r: Result<seq<string>, ConfigurationError>)
    ensures popped.None? ==> r == Success([])
    ensures popped.Some? && popped.value.JString? ==>
      (if allowSingleString then r == Success([popped.value.s])
       else r == Failure(FieldTypeError(name, ListOfStrings, popped.value)))
    ensures popped.Some? && IsListOfString(popped.value) ==>
      r.Success? && seq(|r.value|, i requires 0 <= i < |r.value| => JString(r.value[i])) == popped.value.items
    ensures popped.Some? && !IsListOfString(popped.value) && !popped.value.JString? ==>
      r == Failure(FieldTypeError(name, ListOfStrings, popped.value))
  {
    match popped
    case None => Success([])
    case Some(v) =>
      if allowSingleString && v.JString? then Success([v.s])
      else if IsListOfString(v) then
        var r := Strings(v.items);
        assert seq(|r|, i requires 0 <= i < |r| => JString(r[i])) == v.items;
        Success(r)
      else Failure(FieldTypeError(name, ListOfStrings, v))
  }

  /** `ensure_optional_string_list`. */
  function EnsureOptionalStringList(name: string, popped: Option<Json>): (r: Result<Option<seq<string>>, ConfigurationError>)
    ensures Absent(popped) ==> r == Success(None)
    ensures !Absent(popped) ==>
      (r.Success? <==> IsListOfString(popped.value))
    ensures r.Success? && r.value.Some? ==>
      popped == Some(JArray(seq(|r.value.value|, i requires 0 <= i < |r.value.value| => JString(r.value.value[i]))))
    ensures r.Failure? ==> r.error == FieldTypeError(name, ListOfStrings, popped.value)
  {
    var result := popped;
    if Absent(result) then Success(None)
    else if IsListOfString(result.value) then
      var r := Strings(result.value.items);
      assert JArray(seq(|r|, i requires 0 <= i < |r| => JString(r[i]))) == result.value;
      Success(Some(r))
    else Failure(FieldTypeError(name, ListOfStrings, result.value))
  }

  /** `ensure_optional_string_or_string_dict`, feeding `buck_mode`. */
  function EnsureOptionalStringOrStringDict(name: string, popped: Option<Json>): (r: Result<Option<BuckMode>, ConfigurationError>)
    ensures Absent(popped) ==> r == Success(None)
    ensures !Absent(popped) ==>
      var v := popped.value;
      && (v.JString? ==> r == Success(Some(BuckModeString(v.s))))
      && (v.JObject? ==> (r.Success? <==> forall i :: 0 <= i < |v.members| ==> v.members[i].value.JString?))
      && (v.JObject? && r.Failure? ==> r.error == FieldTypeError(name, DictOfStrings, v))
      && (!v.JString? && !v.JObject? ==> r == Failure(FieldTypeError(name, StringOrStringDict, v)))
    ensures r.Success? && r.value.Some? && r.value.value.BuckModePerPlatform? ==>
      var v := popped.value;
      v.JObject? && |r.value.value.modes| == |v.members| &&
      forall i :: 0 <= i < |v.members| ==>
        v.members[i] == Member(r.value.value.modes[i].0, JString(r.value.value.modes[i].1))
  {
    var result := popped;
    if Absent(result) then Success(None)
    else
      var v := result.value;
      if v.JString? then Success(Some(BuckModeString(v.s)))
      else if v.JObject? then
        if forall i :: 0 <= i < |v.members| ==> v.members[i].value.JString? then
          Success(Some(BuckModePerPlatform(StringPairs(v.members))))
        else Failure(FieldTypeError(name, DictOfStrings, v))
      else Failure(FieldTypeError(name, StringOrStringDict, v))
  }

  function StringPairs(members: seq<Member>): (r: seq<(string, string)>)
    requires forall i :: 0 <= i < |members| ==> members[i].value.JString?
    ensures |r| == |members|
    ensures forall i :: 0 <= i < |members| ==> members[i] == Member(r[i].0, JString(r[i].1))
  {
    seq(|members|, i requires 0 <= i < |members| => (members[i].key, members[i].value.s))
  }

  /** `ensure_list`: a missing key is the empty list. */
  function EnsureList(name: string, popped: Option<Json>): (r: Result<seq<Json>, ConfigurationError>)
    ensures popped.None? ==> r == Success([])
    ensures popped.Some? ==>
      (r.Success? <==> popped.value.JArray?)
    ensures popped.Some? && r.Success? ==> r.value == popped.value.items
    ensures r.Failure? ==> r.error == FieldTypeError(name, AnyList, popped.value)
  {
    match popped
    case None => Success([])
    case Some(v) => if v.JArray? then Success(v.items) else Failure(FieldTypeError(name, AnyList, v))
  }

  /** Settings whose decoders live outside configuration.rs; the caller
      supplies what they produced. */
  datatype DecodedElsewhere = DecodedElsewhere(
    dotPyreDirectory: Option<string>,
    ideFeatures: Option<IdeFeatures>,
    pythonVersion: Option<PythonVersion>,
    searchPath: seq<RawElement>,
    sharedMemory: SharedMemory,
    sitePackageSearchStrategy: Option<SearchStrategy>,
    sourceDirectories: Option<seq<RawElement>>,
    unwatchedDependency: Option<UnwatchedDependency>)

  /** The keys the helpers above pop, in the order the fields are decoded. */
  const DecodedKeys: seq<string> := [
    "binary", "buck_mode", "do_not_ignore_errors_in", "exclude", "extensions",
    "ignore_all_errors", "isolation_prefix", "logger", "workers", "oncall",
    "critical_files", "pysa_version", "site_roots", "strict", "taint_models_path",
    "targets", "typeshed", "use_buck2", "version"]

  /** The keys of the settings decoded outside configuration.rs. */
  const ElsewhereKeys: set<string> := {
    "dot_pyre_directory", "ide_features", "python_version", "search_path",
    "shared_memory", "site_package_search_strategy", "source_directories",
    "unwatched_dependency"}

  /** Every key the decoding consumes. */
  function RecognizedKeys(): set<string> {
    (set k | k in DecodedKeys) + ElsewhereKeys
  }

  /** `_get_depreacted_map`: the one deprecated key and its replacement. */
  const DeprecatedKey := "do_not_check"
  const ReplacementKey := "ignore_all_errors"

  /** `_get_extra_keys`: keys accepted without a warning. */
  const ExtraKeys: set<string> := {
    "create_open_source_configuration", "saved_state", "stable_client",
    "taint_models_path", "unstable_client"}

  /** What popping each decoded key yields, one entry per typed field. */
  datatype PoppedValues = PoppedValues(
    binary: Option<Json>,
    buckMode: Option<Json>,
    doNotIgnoreErrorsIn: Option<Json>,
    excludes: Option<Json>,
    extensions: Option<Json>,
    ignoreAllErrors: Option<Json>,
    isolationPrefix: Option<Json>,
    logger: Option<Json>,
    numberOfWorkers: Option<Json>,
    oncall: Option<Json>,
    otherCriticalFiles: Option<Json>,
    pysaVersionHash: Option<Json>,
    siteRoots: Option<Json>,
    strict: Option<Json>,
    taintModelsPath: Option<Json>,
    targets: Option<Json>,
    typeshed: Option<Json>,
    useBuck2: Option<Json>,
    versionHash: Option<Json>)

  /** The first member under each decoded key, or nothing. */
  function PopDecodedKeys(doc: Document): (r: PoppedValues)
    ensures r.binary == Lookup(doc, "binary") && (r.binary.Some? <==> "binary" in KeySet(doc))
    ensures r.buckMode == Lookup(doc, "buck_mode") && (r.buckMode.Some? <==> "buck_mode" in KeySet(doc))
    ensures r.doNotIgnoreErrorsIn == Lookup(doc, "do_not_ignore_errors_in") && (r.doNotIgnoreErrorsIn.Some? <==> "do_not_ignore_errors_in" in KeySet(doc))
    ensures r.excludes == Lookup(doc, "exclude") && (r.excludes.Some? <==> "exclude" in KeySet(doc))
    ensures r.extensions == Lookup(doc, "extensions") && (r.extensions.Some? <==> "extensions" in KeySet(doc))
    ensures r.ignoreAllErrors == Lookup(doc, "ignore_all_errors") && (r.ignoreAllErrors.Some? <==> "ignore_all_errors" in KeySet(doc))
    ensures r.isolationPrefix == Lookup(doc, "isolation_prefix") && (r.isolationPrefix.Some? <==> "isolation_prefix" in KeySet(doc))
    ensures r.logger == Lookup(doc, "logger") && (r.logger.Some? <==> "logger" in KeySet(doc))
    ensures r.numberOfWorkers == Lookup(doc, "workers") && (r.numberOfWorkers.Some? <==> "workers" in KeySet(doc))
    ensures r.oncall == Lookup(doc, "oncall") && (r.oncall.Some? <==> "oncall" in KeySet(doc))
    ensures r.otherCriticalFiles == Lookup(doc, "critical_files") && (r.otherCriticalFiles.Some? <==> "critical_files" in KeySet(doc))
    ensures r.pysaVersionHash == Lookup(doc, "pysa_version") && (r.pysaVersionHash.Some? <==> "pysa_version" in KeySet(doc))
    ensures r.siteRoots == Lookup(doc, "site_roots") && (r.siteRoots.Some? <==> "site_roots" in KeySet(doc))
    ensures r.strict == Lookup(doc, "strict") && (r.strict.Some? <==> "strict" in KeySet(doc))
    ensures r.taintModelsPath == Lookup(doc, "taint_models_path") && (r.taintModelsPath.Some? <==> "taint_models_path" in KeySet(doc))
    ensures r.targets == Lookup(doc, "targets") && (r.targets.Some? <==> "targets" in KeySet(doc))
    ensures r.typeshed == Lookup(doc, "typeshed") && (r.typeshed.Some? <==> "typeshed" in KeySet(doc))
    ensures r.useBuck2 == Lookup(doc, "use_buck2") && (r.useBuck2.Some? <==> "use_buck2" in KeySet(doc))
    ensures r.versionHash == Lookup(doc, "version") && (r.versionHash.Some? <==> "version" in KeySet(doc))
  {
    PoppedValues(
      binary := Lookup(doc, "binary"),
      buckMode := Lookup(doc, "buck_mode"),
      doNotIgnoreErrorsIn := Lookup(doc, "do_not_ignore_errors_in"),
      excludes := Lookup(doc, "exclude"),
      extensions := Lookup(doc, "extensions"),
      ignoreAllErrors := Lookup(doc, "ignore_all_errors"),
      isolationPrefix := Lookup(doc, "isolation_prefix"),
      logger := Lookup(doc, "logger"),
      numberOfWorkers := Lookup(doc, "workers"),
      oncall := Lookup(doc, "oncall"),
      otherCriticalFiles := Lookup(doc, "critical_files"),
      pysaVersionHash := Lookup(doc, "pysa_version"),
      siteRoots := Lookup(doc, "site_roots"),
      strict := Lookup(doc, "strict"),
      taintModelsPath := Lookup(doc, "taint_models_path"),
      targets := Lookup(doc, "targets"),
      typeshed := Lookup(doc, "typeshed"),
      useBuck2 := Lookup(doc, "use_buck2"),
      versionHash := Lookup(doc, "version"))
  }

  /** The typed fields decoded from the popped values in the source's order;
      the first field of the wrong type aborts the decode. */
  function DecodeValues(v: PoppedValues, elsewhere: DecodedElsewhere): (r: Result<PartialConfiguration, ConfigurationError>)
    ensures r.Success? <==>
      && OptionalString("binary", v.binary).Success?
      && EnsureOptionalStringOrStringDict("buck_mode", v.buckMode).Success?
      && EnsureStringList("do_not_ignore_errors_in", v.doNotIgnoreErrorsIn, false).Success?
      && EnsureStringList("exclude", v.excludes, true).Success?
      && EnsureList("extensions", v.extensions).Success?
      && EnsureStringList("ignore_all_errors", v.ignoreAllErrors, false).Success?
      && OptionalString("isolation_prefix", v.isolationPrefix).Success?
      && OptionalString("logger", v.logger).Success?
      && OptionalInt("workers", v.numberOfWorkers).Success?
      && OptionalString("oncall", v.oncall).Success?
      && EnsureStringList("critical_files", v.otherCriticalFiles, false).Success?
      && OptionalString("pysa_version", v.pysaVersionHash).Success?
      && EnsureOptionalStringList("site_roots", v.siteRoots).Success?
      && OptionalBool("strict", v.strict).Success?
      && EnsureStringList("taint_models_path", v.taintModelsPath, true).Success?
      && EnsureOptionalStringList("targets", v.targets).Success?
      && OptionalString("typeshed", v.typeshed).Success?
      && OptionalBool("use_buck2", v.useBuck2).Success?
      && OptionalString("version", v.versionHash).Success?
    ensures r.Failure? ==> r.error.FieldTypeError? && r.error.field in DecodedKeys
    ensures r.Success? ==>
      var p := r.value;
      && Success(p.binary) == OptionalString("binary", v.binary)
      && Success(p.buckMode) == EnsureOptionalStringOrStringDict("buck_mode", v.buckMode)
      && Success(p.doNotIgnoreErrorsIn) == EnsureStringList("do_not_ignore_errors_in", v.doNotIgnoreErrorsIn, false)
      && Success(p.excludes) == EnsureStringList("exclude", v.excludes, true)
      && Success(p.extensions) == EnsureList("extensions", v.extensions)
      && Success(p.ignoreAllErrors) == EnsureStringList("ignore_all_errors", v.ignoreAllErrors, false)
      && Success(p.isolationPrefix) == OptionalString("isolation_prefix", v.isolationPrefix)
      && Success(p.logger) == OptionalString("logger", v.logger)
      && Success(p.numberOfWorkers) == OptionalInt("workers", v.numberOfWorkers)
      && Success(p.oncall) == OptionalString("oncall", v.oncall)
      && Success(p.otherCriticalFiles) == EnsureStringList("critical_files", v.otherCriticalFiles, false)
      && Success(p.pysaVersionHash) == OptionalString("pysa_version", v.pysaVersionHash)
      && Success(p.siteRoots) == EnsureOptionalStringList("site_roots", v.siteRoots)
      && Success(p.strict) == OptionalBool("strict", v.strict)
      && Success(p.taintModelsPath) == EnsureStringList("taint_models_path", v.taintModelsPath, true)
      && Success(p.targets) == EnsureOptionalStringList("targets", v.targets)
      && Success(p.typeshed) == OptionalString("typeshed", v.typeshed)
      && Success(p.useBuck2) == OptionalBool("use_buck2", v.useBuck2)
      && Success(p.versionHash) == OptionalString("version", v.versionHash)
      && p.dotPyreDirectory == elsewhere.dotPyreDirectory
      && p.ideFeatures == elsewhere.ideFeatures
      && p.pythonVersion == elsewhere.pythonVersion
      && p.searchPath == elsewhere.searchPath
      && p.sharedMemory == elsewhere.sharedMemory
      && p.sitePackageSearchStrategy == elsewhere.sitePackageSearchStrategy
      && p.sourceDirectories == elsewhere.sourceDirectories
      && p.unwatchedDependency == elsewhere.unwatchedDependency
  {
    var binary :- OptionalString("binary", v.binary);
    var buckMode :- EnsureOptionalStringOrStringDict("buck_mode", v.buckMode);
    var doNotIgnoreErrorsIn :- EnsureStringList("do_not_ignore_errors_in", v.doNotIgnoreErrorsIn, false);
    var excludes :- EnsureStringList("exclude", v.excludes, true);
    var extensions :- EnsureList("extensions", v.extensions);
    var ignoreAllErrors :- EnsureStringList("ignore_all_errors", v.ignoreAllErrors, false);
    var isolationPrefix :- OptionalString("isolation_prefix", v.isolationPrefix);
    var logger :- OptionalString("logger", v.logger);
    var numberOfWorkers :- OptionalInt("workers", v.numberOfWorkers);
    var oncall :- OptionalString("oncall", v.oncall);
    var otherCriticalFiles :- EnsureStringList("critical_files", v.otherCriticalFiles, false);
    var pysaVersionHash :- OptionalString("pysa_version", v.pysaVersionHash);
    var siteRoots :- EnsureOptionalStringList("site_roots", v.siteRoots);
    var strict :- OptionalBool("strict", v.strict);
    var taintModelsPath :- EnsureStringList("taint_models_path", v.taintModelsPath, true);
    var targets :- EnsureOptionalStringList("targets", v.targets);
    var typeshed :- OptionalString("typeshed", v.typeshed);
    var useBuck2 :- OptionalBool("use_buck2", v.useBuck2);
    var versionHash :- OptionalString("version", v.versionHash);
    Success(PartialConfiguration(
      binary := binary,
      buckMode := buckMode,
      doNotIgnoreErrorsIn := doNotIgnoreErrorsIn,
      dotPyreDirectory := elsewhere.dotPyreDirectory,
      excludes := excludes,
      extensions := extensions,
      ideFeatures := elsewhere.ideFeatures,
      ignoreAllErrors := ignoreAllErrors,
      isolationPrefix := isolationPrefix,
      logger := logger,
      numberOfWorkers := numberOfWorkers,
      oncall := oncall,
      otherCriticalFiles := otherCriticalFiles,
      pysaVersionHash := pysaVersionHash,
      pythonVersion := elsewhere.pythonVersion,
      searchPath := elsewhere.searchPath,
      sharedMemory := elsewhere.sharedMemory,
      sitePackageSearchStrategy := elsewhere.sitePackageSearchStrategy,
      siteRoots := siteRoots,
      sourceDirectories := elsewhere.sourceDirectories,
      strict := strict,
      taintModelsPath := taintModelsPath,
      targets := targets,
      typeshed := typeshed,
      unwatchedDependency := elsewhere.unwatchedDependency,
      useBuck2 := useBuck2,
      versionHash := versionHash))
  }

  /** A failed decode reports the error of the first helper, in decoding order,
      that fails. */
  lemma DecodeValuesFirstError(v: PoppedValues, elsewhere: DecodedElsewhere)
    ensures var r := DecodeValues(v, elsewhere);
      r.Failure? ==>
      var binary := OptionalString("binary", v.binary);
      var buckMode := EnsureOptionalStringOrStringDict("buck_mode", v.buckMode);
      var doNotIgnoreErrorsIn := EnsureStringList("do_not_ignore_errors_in", v.doNotIgnoreErrorsIn, false);
      var excludes := EnsureStringList("exclude", v.excludes, true);
      var extensions := EnsureList("extensions", v.extensions);
      var ignoreAllErrors := EnsureStringList("ignore_all_errors", v.ignoreAllErrors, false);
      var isolationPrefix := OptionalString("isolation_prefix", v.isolationPrefix);
      var logger := OptionalString("logger", v.logger);
      var numberOfWorkers := OptionalInt("workers", v.numberOfWorkers);
      var oncall := OptionalString("oncall", v.oncall);
      var otherCriticalFiles := EnsureStringList("critical_files", v.otherCriticalFiles, false);
      var pysaVersionHash := OptionalString("pysa_version", v.pysaVersionHash);
      var siteRoots := EnsureOptionalStringList("site_roots", v.siteRoots);
      var strict := OptionalBool("strict", v.strict);
      var taintModelsPath := EnsureStringList("taint_models_path", v.taintModelsPath, true);
      var targets := EnsureOptionalStringList("targets", v.targets);
      var typeshed := OptionalString("typeshed", v.typeshed);
      var useBuck2 := OptionalBool("use_buck2", v.useBuck2);
      var versionHash := OptionalString("version", v.versionHash);
      if binary.Failure? then r.error == binary.error
      else if buckMode.Failure? then r.error == buckMode.error
      else if doNotIgnoreErrorsIn.Failure? then r.error == doNotIgnoreErrorsIn.error
      else if excludes.Failure? then r.error == excludes.error
      else if extensions.Failure? then r.error == extensions.error
      else if ignoreAllErrors.Failure? then r.error == ignoreAllErrors.error
      else if isolationPrefix.Failure? then r.error == isolationPrefix.error
      else if logger.Failure? then r.error == logger.error
      else if numberOfWorkers.Failure? then r.error == numberOfWorkers.error
      else if oncall.Failure? then r.error == oncall.error
      else if otherCriticalFiles.Failure? then r.error == otherCriticalFiles.error
      else if pysaVersionHash.Failure? then r.error == pysaVersionHash.error
      else if siteRoots.Failure? then r.error == siteRoots.error
      else if strict.Failure? then r.error == strict.error
      else if taintModelsPath.Failure? then r.error == taintModelsPath.error
      else if targets.Failure? then r.error == targets.error
      else if typeshed.Failure? then r.error == typeshed.error
      else if useBuck2.Failure? then r.error == useBuck2.error
      else versionHash.Failure? && r.error == versionHash.error
  {
  }

  /** The typed fields of the document: each field is decoded from the member
      under its own key. */
  function DecodeFields(doc: Document, elsewhere: DecodedElsewhere): (r: Result<PartialConfiguration, ConfigurationError>)
    ensures r.Success? <==>
      && OptionalString("binary", Lookup(doc, "binary")).Success?
      && EnsureOptionalStringOrStringDict("buck_mode", Lookup(doc, "buck_mode")).Success?
      && EnsureStringList("do_not_ignore_errors_in", Lookup(doc, "do_not_ignore_errors_in"), false).Success?
      && EnsureStringList("exclude", Lookup(doc, "exclude"), true).Success?
      && EnsureList("extensions", Lookup(doc, "extensions")).Success?
      && EnsureStringList("ignore_all_errors", Lookup(doc, "ignore_all_errors"), false).Success?
      && OptionalString("isolation_prefix", Lookup(doc, "isolation_prefix")).Success?
      && OptionalString("logger", Lookup(doc, "logger")).Success?
      && OptionalInt("workers", Lookup(doc, "workers")).Success?
      && OptionalString("oncall", Lookup(doc, "oncall")).Success?
      && EnsureStringList("critical_files", Lookup(doc, "critical_files"), false).Success?
      && OptionalString("pysa_version", Lookup(doc, "pysa_version")).Success?
      && EnsureOptionalStringList("site_roots", Lookup(doc, "site_roots")).Success?
      && OptionalBool("strict", Lookup(doc, "strict")).Success?
      && EnsureStringList("taint_models_path", Lookup(doc, "taint_models_path"), true).Success?
      && EnsureOptionalStringList("targets", Lookup(doc, "targets")).Success?
      && OptionalString("typeshed", Lookup(doc, "typeshed")).Success?
      && OptionalBool("use_buck2", Lookup(doc, "use_buck2")).Success?
      && OptionalString("version", Lookup(doc, "version")).Success?
    ensures r.Failure? ==> r.error.FieldTypeError? && r.error.field in DecodedKeys
    // the first helper to fail, in decoding order, supplies the error
    ensures r.Failure? ==>
      var binary := OptionalString("binary", Lookup(doc, "binary"));
      var buckMode := EnsureOptionalStringOrStringDict("buck_mode", Lookup(doc, "buck_mode"));
      var doNotIgnoreErrorsIn := EnsureStringList("do_not_ignore_errors_in", Lookup(doc, "do_not_ignore_errors_in"), false);
      var excludes := EnsureStringList("exclude", Lookup(doc, "exclude"), true);
      var extensions := EnsureList("extensions", Lookup(doc, "extensions"));
      var ignoreAllErrors := EnsureStringList("ignore_all_errors", Lookup(doc, "ignore_all_errors"), false);
      var isolationPrefix := OptionalString("isolation_prefix", Lookup(doc, "isolation_prefix"));
      var logger := OptionalString("logger", Lookup(doc, "logger"));
      var numberOfWorkers := OptionalInt("workers", Lookup(doc, "workers"));
      var oncall := OptionalString("oncall", Lookup(doc, "oncall"));
      var otherCriticalFiles := EnsureStringList("critical_files", Lookup(doc, "critical_files"), false);
      var pysaVersionHash := OptionalString("pysa_version", Lookup(doc, "pysa_version"));
      var siteRoots := EnsureOptionalStringList("site_roots", Lookup(doc, "site_roots"));
      var strict := OptionalBool("strict", Lookup(doc, "strict"));
      var taintModelsPath := EnsureStringList("taint_models_path", Lookup(doc, "taint_models_path"), true);
      var targets := EnsureOptionalStringList("targets", Lookup(doc, "targets"));
      var typeshed := OptionalString("typeshed", Lookup(doc, "typeshed"));
      var useBuck2 := OptionalBool("use_buck2", Lookup(doc, "use_buck2"));
      var versionHash := OptionalString("version", Lookup(doc, "version"));
      if binary.Failure? then r.error == binary.error
      else if buckMode.Failure? then r.error == buckMode.error
      else if doNotIgnoreErrorsIn.Failure? then r.error == doNotIgnoreErrorsIn.error
      else if excludes.Failure? then r.error == excludes.error
      else if extensions.Failure? then r.error == extensions.error
      else if ignoreAllErrors.Failure? then r.error == ignoreAllErrors.error
      else if isolationPrefix.Failure? then r.error == isolationPrefix.error
      else if logger.Failure? then r.error == logger.error
      else if numberOfWorkers.Failure? then r.error == numberOfWorkers.error
      else if oncall.Failure? then r.error == oncall.error
      else if otherCriticalFiles.Failure? then r.error == otherCriticalFiles.error
      else if pysaVersionHash.Failure? then r.error == pysaVersionHash.error
      else if siteRoots.Failure? then r.error == siteRoots.error
      else if strict.Failure? then r.error == strict.error
      else if taintModelsPath.Failure? then r.error == taintModelsPath.error
      else if targets.Failure? then r.error == targets.error
      else if typeshed.Failure? then r.error == typeshed.error
      else if useBuck2.Failure? then r.error == useBuck2.error
      else versionHash.Failure? && r.error == versionHash.error
    ensures r.Success? ==>
      var p := r.value;
      && Success(p.binary) == OptionalString("binary", Lookup(doc, "binary"))
      && Success(p.buckMode) == EnsureOptionalStringOrStringDict("buck_mode", Lookup(doc, "buck_mode"))
      && Success(p.doNotIgnoreErrorsIn) == EnsureStringList("do_not_ignore_errors_in", Lookup(doc, "do_not_ignore_errors_in"), false)
      && Success(p.excludes) == EnsureStringList("exclude", Lookup(doc, "exclude"), true)
      && Success(p.extensions) == EnsureList("extensions", Lookup(doc, "extensions"))
      && Success(p.ignoreAllErrors) == EnsureStringList("ignore_all_errors", Lookup(doc, "ignore_all_errors"), false)
      && Success(p.isolationPrefix) == OptionalString("isolation_prefix", Lookup(doc, "isolation_prefix"))
      && Success(p.logger) == OptionalString("logger", Lookup(doc, "logger"))
      && Success(p.numberOfWorkers) == OptionalInt("workers", Lookup(doc, "workers"))
      && Success(p.oncall) == OptionalString("oncall", Lookup(doc, "oncall"))
      && Success(p.otherCriticalFiles) == EnsureStringList("critical_files", Lookup(doc, "critical_files"), false)
      && Success(p.pysaVersionHash) == OptionalString("pysa_version", Lookup(doc, "pysa_version"))
      && Success(p.siteRoots) == EnsureOptionalStringList("site_roots", Lookup(doc, "site_roots"))
      && Success(p.strict) == OptionalBool("strict", Lookup(doc, "strict"))
      && Success(p.taintModelsPath) == EnsureStringList("taint_models_path", Lookup(doc, "taint_models_path"), true)
      && Success(p.targets) == EnsureOptionalStringList("targets", Lookup(doc, "targets"))
      && Success(p.typeshed) == OptionalString("typeshed", Lookup(doc, "typeshed"))
      && Success(p.useBuck2) == OptionalBool("use_buck2", Lookup(doc, "use_buck2"))
      && Success(p.versionHash) == OptionalString("version", Lookup(doc, "version"))
      && p.dotPyreDirectory == elsewhere.dotPyreDirectory
      && p.ideFeatures == elsewhere.ideFeatures
      && p.pythonVersion == elsewhere.pythonVersion
      && p.searchPath == elsewhere.searchPath
      && p.sharedMemory == elsewhere.sharedMemory
      && p.sitePackageSearchStrategy == elsewhere.sitePackageSearchStrategy
      && p.sourceDirectories == elsewhere.sourceDirectories
      && p.unwatchedDependency == elsewhere.unwatchedDependency
  {
    DecodeValues(PopDecodedKeys(doc), elsewhere)
  }

  /** A failed decode of a document reports the error of the first field,
      in decoding order, whose member has the wrong type. */
  lemma DecodeFieldsFirstError(doc: Document, elsewhere: DecodedElsewhere)
    ensures var r := DecodeFields(doc, elsewhere);
      r.Failure? ==>
      var binary := OptionalString("binary", Lookup(doc, "binary"));
      var buckMode := EnsureOptionalStringOrStringDict("buck_mode", Lookup(doc, "buck_mode"));
      var doNotIgnoreErrorsIn := EnsureStringList("do_not_ignore_errors_in", Lookup(doc, "do_not_ignore_errors_in"), false);
      var excludes := EnsureStringList("exclude", Lookup(doc, "exclude"), true);
      var extensions := EnsureList("extensions", Lookup(doc, "extensions"));
      var ignoreAllErrors := EnsureStringList("ignore_all_errors", Lookup(doc, "ignore_all_errors"), false);
      var isolationPrefix := OptionalString("isolation_prefix", Lookup(doc, "isolation_prefix"));
      var logger := OptionalString("logger", Lookup(doc, "logger"));
      var numberOfWorkers := OptionalInt("workers", Lookup(doc, "workers"));
      var oncall := OptionalString("oncall", Lookup(doc, "oncall"));
      var otherCriticalFiles := EnsureStringList("critical_files", Lookup(doc, "critical_files"), false);
      var pysaVersionHash := OptionalString("pysa_version", Lookup(doc, "pysa_version"));
      var siteRoots := EnsureOptionalStringList("site_roots", Lookup(doc, "site_roots"));
      var strict := OptionalBool("strict", Lookup(doc, "strict"));
      var taintModelsPath := EnsureStringList("taint_models_path", Lookup(doc, "taint_models_path"), true);
      var targets := EnsureOptionalStringList("targets", Lookup(doc, "targets"));
      var typeshed := OptionalString("typeshed", Lookup(doc, "typeshed"));
      var useBuck2 := OptionalBool("use_buck2", Lookup(doc, "use_buck2"));
      var versionHash := OptionalString("version", Lookup(doc, "version"));
      if binary.Failure? then r.error == binary.error
      else if buckMode.Failure? then r.error == buckMode.error
      else if doNotIgnoreErrorsIn.Failure? then r.error == doNotIgnoreErrorsIn.error
      else if excludes.Failure? then r.error == excludes.error
      else if extensions.Failure? then r.error == extensions.error
      else if ignoreAllErrors.Failure? then r.error == ignoreAllErrors.error
      else if isolationPrefix.Failure? then r.error == isolationPrefix.error
      else if logger.Failure? then r.error == logger.error
      else if numberOfWorkers.Failure? then r.error == numberOfWorkers.error
      else if oncall.Failure? then r.error == oncall.error
      else if otherCriticalFiles.Failure? then r.error == otherCriticalFiles.error
      else if pysaVersionHash.Failure? then r.error == pysaVersionHash.error
      else if siteRoots.Failure? then r.error == siteRoots.error
      else if strict.Failure? then r.error == strict.error
      else if taintModelsPath.Failure? then r.error == taintModelsPath.error
      else if targets.Failure? then r.error == targets.error
      else if typeshed.Failure? then r.error == typeshed.error
      else if useBuck2.Failure? then r.error == useBuck2.error
      else versionHash.Failure? && r.error == versionHash.error
  {
    DecodeValuesFirstError(PopDecodedKeys(doc), elsewhere);
  }

  /** `{"workers": "four"}` fails on the worker count, which must be an integer. */
  lemma WorkersMustBeInteger(elsewhere: DecodedElsewhere)
    ensures DecodeFields([Member("workers", JString("four"))], elsewhere)
         == Failure(FieldTypeError("workers", TypeOf(IntType), JString("four")))
  {
    var doc := [Member("workers", JString("four"))];
    DecodeFieldsFirstError(doc, elsewhere);
    assert KeySet(doc) == {"workers"};
    assert Lookup(doc, "workers") == Some(JString("four"));
  }

  /** One warning per key left over that is not an accepted extra key. */
  function UnrecognizedWarnings(rest: Document): (ws: seq<Warning>)
    ensures forall w :: w in ws ==> w.UnrecognizedItem? && w.key in KeySet(rest) && w.key !in ExtraKeys
  {
    if |rest| == 0 then []
    else
      assert rest == [rest[0]] + rest[1..];
      var tail := UnrecognizedWarnings(rest[1..]);
      if rest[0].key in ExtraKeys then tail else [UnrecognizedItem(rest[0].key)] + tail
  }

  /** Over a document without repeated keys, each leftover key that is not an
      extra key is warned about exactly once, and no other key is. */
  lemma {:induction false} UnrecognizedWarningsCount(rest: Document, k: string)
    requires DistinctKeys(rest)
    ensures multiset(UnrecognizedWarnings(rest))[UnrecognizedItem(k)]
         == if k in KeySet(rest) && k !in ExtraKeys then 1 else 0
    decreases |rest|
  {
    if |rest| > 0 {
      assert rest == [rest[0]] + rest[1..];
      assert DistinctKeys(rest[1..]);
      UnrecognizedWarningsCount(rest[1..], k);
      if rest[0].key == k {
        assert k !in KeySet(rest[1..]);
      }
    }
  }

  /** The deprecated key is popped by none of the field decoders. */
  lemma DeprecatedKeyIsNotRecognized()
    ensures DeprecatedKey !in RecognizedKeys()
  {
    assert DeprecatedKey !in DecodedKeys;
  }

  /** The warnings for the keys left once decoding has popped its own: the
      deprecated key first, then the unrecognized keys in document order. */
  function KeyDiagnostics(doc: Document): (ws: seq<Warning>)
    // the deprecated key is reported, pointing at its replacement, exactly when present
    ensures DeprecatedItem(DeprecatedKey, ReplacementKey) in ws <==> DeprecatedKey in KeySet(doc)
    ensures forall w :: w in ws ==>
      w == DeprecatedItem(DeprecatedKey, ReplacementKey) ||
      (w.UnrecognizedItem? && w.key in KeySet(doc) && w.key !in RecognizedKeys()
       && w.key != DeprecatedKey && w.key !in ExtraKeys)
  {
    var rest := Without(doc, RecognizedKeys());
    DeprecatedKeyIsNotRecognized();
    var deprecated := if DeprecatedKey in KeySet(rest) then [DeprecatedItem(DeprecatedKey, ReplacementKey)] else [];
    var unused := Without(rest, {DeprecatedKey});
    deprecated + UnrecognizedWarnings(unused)
  }

  /** Each key of the document that is neither decoded, deprecated nor an
      accepted extra key draws exactly one "unrecognized" warning; every other
      key draws none. */
  lemma KeyDiagnosticsCount(doc: Document, k: string)
    requires DistinctKeys(doc)
    ensures multiset(KeyDiagnostics(doc))[UnrecognizedItem(k)]
         == if k in KeySet(doc) && k !in RecognizedKeys() && k != DeprecatedKey && k !in ExtraKeys then 1 else 0
  {
    var rest := Without(doc, RecognizedKeys());
    var unused := Without(rest, {DeprecatedKey});
    WithoutKeepsDistinct(doc, RecognizedKeys());
    WithoutKeepsDistinct(rest, {DeprecatedKey});
    UnrecognizedWarningsCount(unused, k);
  }

  /** The result of decoding one configuration file. */
  datatype Decoded = Decoded(configuration: PartialConfiguration, warnings: seq<Warning>)

  /** `PartialConfiguration::from_string` on an already parsed document: a
      field of the wrong type fails the whole decode, with no warnings. */
  function FromString(doc: Document, elsewhere: DecodedElsewhere): (r: Result<Decoded, ConfigurationError>)
    ensures r.Success? <==> DecodeFields(doc, elsewhere).Success?
    ensures r.Success? ==> r.value.configuration == DecodeFields(doc, elsewhere).value
    ensures r.Success? ==> r.value.warnings == KeyDiagnostics(doc)
    ensures r.Failure? ==> r.error == DecodeFields(doc, elsewhere).error
  {
    var configuration :- DecodeFields(doc, elsewhere);
    Success(Decoded(configuration, KeyDiagnostics(doc)))
  }

  /** The deprecated key's value is not migrated: a document with a
      `do_not_check` member added decodes to exactly the same settings. */
  lemma DeprecatedValueNotMigrated(doc: Document, elsewhere: DecodedElsewhere, v: Json)
    ensures DecodeFields(doc + [Member(DeprecatedKey, v)], elsewhere) == DecodeFields(doc, elsewhere)
  {
    PopIgnoresDeprecated(doc, Member(DeprecatedKey, v));
  }

  /** Appending a `do_not_check` member changes none of the popped values. */
  lemma PopIgnoresDeprecated(doc: Document, m: Member)
    requires m.key == DeprecatedKey
    ensures PopDecodedKeys(doc + [m]) == PopDecodedKeys(doc)
  {
    LookupAppendOther(doc, m, "binary");
    LookupAppendOther(doc, m, "buck_mode");
    LookupAppendOther(doc, m, "do_not_ignore_errors_in");
    LookupAppendOther(doc, m, "exclude");
    LookupAppendOther(doc, m, "extensions");
    LookupAppendOther(doc, m, "ignore_all_errors");
    LookupAppendOther(doc, m, "isolation_prefix");
    LookupAppendOther(doc, m, "logger");
    LookupAppendOther(doc, m, "workers");
    LookupAppendOther(doc, m, "oncall");
    LookupAppendOther(doc, m, "critical_files");
    LookupAppendOther(doc, m, "pysa_version");
    LookupAppendOther(doc, m, "site_roots");
    LookupAppendOther(doc, m, "strict");
    LookupAppendOther(doc, m, "taint_models_path");
    LookupAppendOther(doc, m, "targets");
    LookupAppendOther(doc, m, "typeshed");
    LookupAppendOther(doc, m, "use_buck2");
    LookupAppendOther(doc, m, "version");
  }

  lemma {:induction false} LookupAppendOther(doc: Document, m: Member, name: string)
    requires m.key != name
    ensures Lookup(doc + [m], name) == Lookup(doc, name)
    decreases |doc|
  {
    if |doc| > 0 {
      assert (doc + [m])[1..] == doc[1..] + [m];
      LookupAppendOther(doc[1..], m, name);
    }
  }
}

=== FILE: diagnostics.dfy ===
/** Non-fatal diagnostics the source prints as warnings; the model returns
    them as a list instead. */
module Diagnostics {

  datatype Warning =
    | DeprecatedItem(key: string, replacement: string)  // "Configuration file uses deprecated item ..."
    | UnrecognizedItem(key: string)                      // "Unrecognized configuration item: ..."
    | NoGlobMatch(pattern: string)                       // "WARNING '...' does not match any paths."
}

=== FILE: filesystem.dfy ===
/** Path strings, the `//` global-root convention and path expansion.  The
    filesystem's canonicalisation is a parameter: a total function from path
    strings to path strings. */
module FileSystem {
  import opened Text

  type Canonicalizer = string -> string

  /** The marker that makes a configured path relative to the global root. */
  const GlobalRootMarker := "//"

  predicate IsAbsolute(path: string) {
    |path| > 0 && path[0] == '/'
  }

  /** `Path::join`: an absolute second path replaces the first, otherwise a
      single separator is placed between them. */
  function JoinPath(root: string, path: string): (r: string)
    ensures IsAbsolute(path) || root == "" ==> r == path
    // a relative path goes under `root`, with exactly one separator between
    ensures !IsAbsolute(path) && root != "" ==>
      var sep := if root[|root| - 1] == '/' then "" else "/";
      r == root + sep + path
  {
    if IsAbsolute(path) || root == "" then path
    else if root[|root| - 1] == '/' then root + path
    else root + "/" + path
  }

  /** What canonicalisation is expected to produce: an absolute path that does
      not start with the global-root marker and is its own canonical form. */
  ghost predicate WellFormedCanonicalizer(canonicalize: Canonicalizer) {
    forall p ::
      && IsAbsolute(canonicalize(p))
      && !StartsWith(canonicalize(p), GlobalRootMarker)
      && canonicalize(canonicalize(p)) == canonicalize(p)
  }

  /** `expand_relative_path`: the canonical form of `path` read relative to
      `root`; an absolute `path` is canonicalised on its own. */
  function ExpandRelativePath(canonicalize: Canonicalizer, root: string, path: string): (r: string)
    ensures r == canonicalize(JoinPath(root, path))
  {
    if IsAbsolute(path) then canonicalize(path) else canonicalize(JoinPath(root, path))
  }

  /** An absolute path expands to its canonical form whatever the root. */
  lemma ExpandAbsoluteIgnoresRoot(canonicalize: Canonicalizer, root1: string, root2: string, path: string)
    requires IsAbsolute(path)
    ensures ExpandRelativePath(canonicalize, root1, path) == canonicalize(path)
    ensures ExpandRelativePath(canonicalize, root1, path) == ExpandRelativePath(canonicalize, root2, path)
  {
  }

  /** An expanded path is absolute, and expanding it again, against any root,
      changes nothing. */
  lemma ExpandRelativePathIdempotent(canonicalize: Canonicalizer, root: string, other: string, path: string)
    requires WellFormedCanonicalizer(canonicalize)
    ensures IsAbsolute(ExpandRelativePath(canonicalize, root, path))
    ensures !StartsWith(ExpandRelativePath(canonicalize, root, path), GlobalRootMarker)
    ensures var once := ExpandRelativePath(canonicalize, root, path);
      ExpandRelativePath(canonicalize, other, once) == once
  {
    var p := JoinPath(root, path);
    assert IsAbsolute(canonicalize(p)) && canonicalize(canonicalize(p)) == canonicalize(p);
    assert !StartsWith(canonicalize(p), GlobalRootMarker);
  }

  /** `expand_relative_path` exactly as written: `canonicalize` resolves the
      bare `path` against the process's working directory `cwd`, the result
      is always absolute, and `root` is never consulted. */
  function ExpandRelativePathAsWritten(canonicalize: Canonicalizer, cwd: string, root: string, path: string): (r: string)
    requires forall p :: IsAbsolute(canonicalize(p))
    ensures r == canonicalize(JoinPath(cwd, path))
  {
    var expanded := canonicalize(JoinPath(cwd, path));
    if IsAbsolute(expanded) then expanded else JoinPath(path, expanded)
  }

  /** The as-written expansion gives the same answer for every root. */
  lemma AsWrittenIgnoresRoot(canonicalize: Canonicalizer, cwd: string, root1: string, root2: string, path: string)
    requires forall p :: IsAbsolute(canonicalize(p))
    ensures ExpandRelativePathAsWritten(canonicalize, cwd, root1, path)
         == ExpandRelativePathAsWritten(canonicalize, cwd, root2, path)
  {
  }

  /** A stand-in canonicalisation: relative paths are anchored at "/". */
  function Anchor(p: string): string {
    if IsAbsolute(p) then p else "/" + p
  }

  /** With the project at "/proj" and the process started in "/home", the
      relative entry "src" is meant to expand to "/proj/src"; as written it
      expands to "/home/src". */
  lemma AsWrittenDiffersFromIntended()
    ensures ExpandRelativePath(Anchor, "/proj", "src") == "/proj/src"
    ensures ExpandRelativePathAsWritten(Anchor, "/home", "/proj", "src") == "/home/src"
  {
    assert JoinPath("/proj", "src") == "/proj/src";
    assert JoinPath("/home", "src") == "/home/src";
  }

  /** `expand_global_root`: a path starting with `//` is read relative to the
      global root after exactly those two characters are dropped; any other
      path is returned untouched. */
  function ExpandGlobalRoot(canonicalize: Canonicalizer, path: string, globalRoot: string): (r: string)
    ensures !StartsWith(path, GlobalRootMarker) ==> r == path
    ensures StartsWith(path, GlobalRootMarker) ==>
      |path| >= 2 && r == canonicalize(JoinPath(globalRoot, path[2..]))
  {
    if StartsWith(path, GlobalRootMarker) then ExpandRelativePath(canonicalize, globalRoot, path[2..])
    else path
  }

  /** An ordinary absolute path, with a single leading slash, is not read
      relative to the global root. */
  lemma SingleSlashIsNotGlobal(canonicalize: Canonicalizer, path: string, globalRoot: string)
    requires IsAbsolute(path) && (|path| == 1 || path[1] != '/')
    ensures ExpandGlobalRoot(canonicalize, path, globalRoot) == path
  {
    assert !StartsWith(path, GlobalRootMarker);
  }

  /** "//sub/dir" under the global root "/proj" is "/proj/sub/dir". */
  lemma GlobalRootExample(canonicalize: Canonicalizer)
    ensures ExpandGlobalRoot(canonicalize, "//sub/dir", "/proj") == canonicalize("/proj/sub/dir")
    ensures ExpandGlobalRoot(canonicalize, "rel/dir", "/proj") == "rel/dir"
  {
    assert StartsWith("//sub/dir", GlobalRootMarker);
    assert "//sub/dir"[2..] == "sub/dir";
    assert JoinPath("/proj", "sub/dir") == "/proj/sub/dir";
    assert "rel/dir"[..2] != GlobalRootMarker by { assert "rel/dir"[..2][0] == 'r'; }
  }

  // ----- Directories as component sequences -----

  /** A directory as its components below the filesystem root; `[]` is "/". */
  type Dir = seq<string>

  /** A file inside a directory: the directory's components plus its name. */
  type FilePath = seq<string>

  predicate IsPrefix(a: Dir, b: Dir) {
    |a| <= |b| && b[..|a|] == a
  }

  /** The string form of a directory: "/" followed by its components. */
  function Render(d: Dir): (r: string)
    ensures IsAbsolute(r)
    ensures |d| > 0 ==> r == Join([""] + d, '/')
  {
    "/" + Join(d, '/')
  }

  /** A component a directory can hold: a name, not empty, not `.`, and
      without a separator. */
  predicate IsName(c: string) {
    c != "" && c != "." && '/' !in c
  }

  predicate AllNames(d: Dir) {
    forall c :: c in d ==> IsName(c)
  }

  /** The normal components of a path string: separators repeated or at the
      end and `.` components contribute nothing. */
  function Components(s: string): (r: Dir)
    ensures AllNames(r)
    ensures forall c :: c in r <==> c in Split(s, '/') && c != "" && c != "."
  {
    FilterComponents(Split(s, '/'))
  }

  function FilterComponents(parts: seq<string>): (r: seq<string>)
    ensures forall c :: c in r <==> c in parts && c != "" && c != "."
    ensures |r| <= |parts|
  {
    if |parts| == 0 then []
    else
      var rest := FilterComponents(parts[1..]);
      if parts[0] == "" || parts[0] == "." then rest else [parts[0]] + rest
  }

  /** A single piece is kept exactly when it is neither empty nor `.`. */
  lemma FilterOne(c: string)
    ensures FilterComponents([c]) == if c == "" || c == "." then [] else [c]
  {
    assert [c][1..] == [];
  }

  /** The filter works piece by piece: filtering `a ++ b` keeps the kept
      pieces of `a`, in order, followed by those of `b`. */
  lemma {:induction false} FilterAppend(a: seq<string>, b: seq<string>)
    ensures FilterComponents(a + b) == FilterComponents(a) + FilterComponents(b)
    decreases |a|
  {
    if |a| > 0 {
      assert (a + b)[0] == a[0];
      assert (a + b)[1..] == a[1..] + b;
      FilterAppend(a[1..], b);
    } else {
      assert a + b == b;
    }
  }

  /** `PathBuf` built from `[base, path]`: an absolute `path` replaces `base`. */
  function JoinDir(base: Dir, path: string): (r: Dir)
    ensures IsAbsolute(path) ==> r == Components(path)
    ensures !IsAbsolute(path) ==> IsPrefix(base, r) && r[|base|..] == Components(path)
  {
    if IsAbsolute(path) then Components(path) else base + Components(path)
  }

  /** Names pass the component filter unchanged. */
  lemma {:induction false} FilterKeepsNames(parts: seq<string>)
    requires AllNames(parts)
    ensures FilterComponents(parts) == parts
    decreases |parts|
  {
    if |parts| > 0 {
      assert parts[0] in parts;
      assert forall c :: c in parts[1..] ==> c in parts;
      FilterKeepsNames(parts[1..]);
      assert parts == [parts[0]] + parts[1..];
    }
  }

  /** Reading the components of a rendered directory gives the directory back. */
  lemma ComponentsRender(d: Dir)
    requires AllNames(d)
    ensures Components(Render(d)) == d
  {
    if |d| == 0 {
      var parts := Split("/", '/');
      assert parts == ["", ""] by {
        SplitJoin(["", ""], '/');
        assert Join(["", ""], '/') == "/";
      }
      assert FilterComponents(parts[1..]) == [];
    } else {
      var parts := [""] + d;
      assert forall c :: c in parts ==> '/' !in c;
      SplitJoin(parts, '/');
      FilterKeepsNames(d);
      assert parts[1..] == d;
    }
  }

  /** Reading the components of names joined by separators gives the names back. */
  lemma ComponentsOfJoin(d: Dir)
    requires |d| > 0 && AllNames(d)
    ensures Components(Join(d, '/')) == d
  {
    SplitJoin(d, '/');
    FilterKeepsNames(d);
  }

  /** Joining `d1 ++ d2` is joining the two halves around one separator. */
  lemma {:induction false} JoinAppend(d1: seq<string>, d2: seq<string>, sep: char)
    requires |d1| > 0 && |d2| > 0
    ensures Join(d1 + d2, sep) == Join(d1, sep) + [sep] + Join(d2, sep)
    decreases |d1|
  {
    if |d1| == 1 {
      assert (d1 + d2)[1..] == d2;
    } else {
      assert (d1 + d2)[1..] == d1[1..] + d2;
      JoinAppend(d1[1..], d2, sep);
    }
  }

  /** A relative name joined onto a rendered directory, as a string or as
      components, gives the same path. */
  lemma JoinNameAgrees(base: Dir, c: string)
    requires AllNames(base) && IsName(c)
    ensures Components(c) == [c]
    ensures JoinDir(base, c) == base + [c]
    ensures JoinPath(Render(base), c) == Render(base + [c])
  {
    assert Split(c, '/') == [c];
    assert FilterComponents([c][1..]) == [];
    if |base| > 0 {
      var last := base[|base| - 1];
      assert last in base;
      JoinLast(base);
      JoinAppend(base, [c], '/');
    }
  }

  /** A join of names ends with the last name's last character. */
  lemma {:induction false} JoinLast(d: seq<string>)
    requires |d| > 0 && d[|d| - 1] != ""
    ensures var j := Join(d, '/'); |j| > 0 && j[|j| - 1] == d[|d| - 1][|d[|d| - 1]| - 1]
    decreases |d|
  {
    if |d| > 1 {
      assert d[1..][|d[1..]| - 1] == d[|d| - 1];
      JoinLast(d[1..]);
    }
  }
}

=== FILE: find_directories.dfy ===
/** Walking up from a base directory to the nearest global and local
    configuration files.  Which files exist is a parameter. */
module FindDirectories {
  import opened Wrappers
  import opened Integers
  import opened FileSystem

  const ConfigurationFile := ".pyre_configuration"
  const LocalConfigurationFile := ".pyre_configuration.local"
  const LogDirectory := ".pyre"

  const UsizeModulus := 0x1_0000_0000_0000_0000

  /** `stop as usize` on a 64-bit target: a negative `i32` sign-extends and
      wraps around to a bound no search ever reaches. */
  function AsUsize(n: Int32): (r: nat)
    ensures r < UsizeModulus
    ensures n >= 0 ==> r == n
    ensures n < 0 ==> r == n + UsizeModulus && r >= UsizeModulus - 0x8000_0000
  {
    if n < 0 then n + UsizeModulus else n
  }

  /** The `i`-th entry of `Path::ancestors`: `base` itself for 0, then each
      parent in turn, up to the filesystem root. */
  function Ancestor(base: Dir, i: nat): (d: Dir)
    requires i <= |base|
    ensures IsPrefix(d, base) && |d| == |base| - i
  {
    base[..|base| - i]
  }

  /** Index of the last ancestor the search examines. */
  function LastExamined(base: Dir, stopSearchAfter: Option<Int32>): (k: nat)
    ensures k <= |base|
    ensures stopSearchAfter.None? ==> k == |base|
    // a bound stops the walk after that many parents, or at the root
    ensures stopSearchAfter.Some? ==>
      k == if AsUsize(stopSearchAfter.value) < |base| then AsUsize(stopSearchAfter.value) else |base|
  {
    match stopSearchAfter
    case None => |base|
    case Some(n) => if AsUsize(n) < |base| then AsUsize(n) else |base|
  }

  /** The loop of `_find_parent_directory_containing` from index `i` on:
      test the candidate, then give up if the bound has been reached. */
  function SearchFrom(base: Dir, target: string, present: FilePath -> bool,
                      stopSearchAfter: Option<Int32>, i: nat): (r: Option<nat>)
    requires i <= LastExamined(base, stopSearchAfter)
    ensures r.Some? ==>
      && i <= r.value <= LastExamined(base, stopSearchAfter)
      && present(Ancestor(base, r.value) + [target])
      && forall j :: i <= j < r.value ==> !present(Ancestor(base, j) + [target])
    ensures r.None? ==>
      forall j :: i <= j <= LastExamined(base, stopSearchAfter) ==> !present(Ancestor(base, j) + [target])
    decreases |base| - i
  {
    if present(Ancestor(base, i) + [target]) then Some(i)
    else if stopSearchAfter.Some? && i >= AsUsize(stopSearchAfter.value) then None
    else if i == |base| then None
    else SearchFrom(base, target, present, stopSearchAfter, i + 1)
  }

  /** `_find_parent_directory_containing`: the nearest examined ancestor of
      `base` in which `target` satisfies `present`. */
  function FindParentDirectoryContaining(base: Dir, target: string, present: FilePath -> bool,
                                         stopSearchAfter: Option<Int32>): (r: Option<Dir>)
    ensures r.Some? ==>
      && IsPrefix(r.value, base)
      && |base| - |r.value| <= LastExamined(base, stopSearchAfter)
      && present(r.value + [target])
      && forall j :: 0 <= j < |base| - |r.value| ==> !present(Ancestor(base, j) + [target])
    ensures r.None? <==>
      forall j :: 0 <= j <= LastExamined(base, stopSearchAfter) ==> !present(Ancestor(base, j) + [target])
  {
    match SearchFrom(base, target, present, stopSearchAfter, 0)
    case None => None
    case Some(i) => Some(Ancestor(base, i))
  }

  /** `find_parent_directory_containing_file`: the predicate is "is an
      existing regular file", i.e. membership in `files`. */
  function FindParentDirectoryContainingFile(files: set<FilePath>, base: Dir, target: string,
                                             stopSearchAfter: Option<Int32>): (r: Option<Dir>)
    ensures r.Some? ==>
      && IsPrefix(r.value, base)
      && |base| - |r.value| <= LastExamined(base, stopSearchAfter)
      && r.value + [target] in files
      && forall j :: 0 <= j < |base| - |r.value| ==> Ancestor(base, j) + [target] !in files
    ensures r.None? <==>
      forall j :: 0 <= j <= LastExamined(base, stopSearchAfter) ==> Ancestor(base, j) + [target] !in files
  {
    FindParentDirectoryContaining(base, target, p => p in files, stopSearchAfter)
  }

  /** With a bound of `k` (0 <= k), only `base` and its `k` nearest parents
      are examined: a match further up is not found. */
  lemma BoundedSearchStops(files: set<FilePath>, base: Dir, target: string, k: Int32)
    requires 0 <= k < |base|
    requires forall j :: 0 <= j <= k ==> Ancestor(base, j) + [target] !in files
    ensures FindParentDirectoryContainingFile(files, base, target, Some(k)) == None
  {
  }

  /** A negative bound wraps to a huge `usize`, so it bounds nothing. */
  lemma NegativeBoundIsUnbounded(base: Dir, target: string, present: FilePath -> bool, n: Int32)
    requires n < 0 && |base| < UsizeModulus - 0x8000_0000
    ensures FindParentDirectoryContaining(base, target, present, Some(n))
         == FindParentDirectoryContaining(base, target, present, None)
  {
    SearchIgnoresUnreachedBound(base, target, present, n, 0);
  }

  lemma {:induction false} SearchIgnoresUnreachedBound(base: Dir, target: string, present: FilePath -> bool,
                                                       n: Int32, i: nat)
    requires |base| < AsUsize(n) && i <= |base|
    ensures SearchFrom(base, target, present, Some(n), i) == SearchFrom(base, target, present, None, i)
    decreases |base| - i
  {
    if i < |base| {
      SearchIgnoresUnreachedBound(base, target, present, n, i + 1);
    }
  }

  datatype FoundRoot = FoundRoot(globalRoot: Dir, localRoot: Option<Dir>)

  /** The nearest directory holding a global configuration file. */
  function NearestGlobal(files: set<FilePath>, base: Dir): Option<Dir> {
    FindParentDirectoryContainingFile(files, base, ConfigurationFile, None)
  }

  /** The nearest directory holding a local configuration file. */
  function NearestLocal(files: set<FilePath>, base: Dir): Option<Dir> {
    FindParentDirectoryContainingFile(files, base, LocalConfigurationFile, None)
  }

  /** `find_global_and_local_root`: `None` when no ancestor holds a global
      configuration; otherwise the nearest global root, with the nearest
      local root unless that is the global root or one of its ancestors. */
  function FindGlobalAndLocalRoot(files: set<FilePath>, base: Dir): (r: Option<FoundRoot>)
    ensures r.None? <==> forall j :: 0 <= j <= |base| ==> Ancestor(base, j) + [ConfigurationFile] !in files
    ensures r.Some? ==> Some(r.value.globalRoot) == NearestGlobal(files, base)
    ensures r.Some? ==>
      (r.value.localRoot.Some? <==>
        NearestLocal(files, base).Some? && !IsPrefix(NearestLocal(files, base).value, r.value.globalRoot))
    ensures r.Some? && r.value.localRoot.Some? ==> r.value.localRoot == NearestLocal(files, base)
  {
    match NearestGlobal(files, base)
    case None => None
    case Some(globalRoot) =>
      match NearestLocal(files, base)
      case None => Some(FoundRoot(globalRoot, None))
      case Some(localRoot) =>
        if IsPrefix(localRoot, globalRoot) then Some(FoundRoot(globalRoot, None))
        else Some(FoundRoot(globalRoot, Some(localRoot)))
  }

  /** Two ancestors of the same directory are ordered by the prefix relation. */
  lemma PrefixesComparable(a: Dir, b: Dir, base: Dir)
    requires IsPrefix(a, base) && IsPrefix(b, base)
    ensures IsPrefix(a, b) || IsPrefix(b, a)
  {
    if |a| <= |b| {
      assert b[..|a|] == base[..|a|];
    } else {
      assert a[..|b|] == base[..|b|];
    }
  }

  /** A local root that is kept lies strictly below the global root, and both
      are ancestors of the base directory. */
  lemma LocalRootBelowGlobalRoot(files: set<FilePath>, base: Dir)
    requires FindGlobalAndLocalRoot(files, base).Some?
    requires FindGlobalAndLocalRoot(files, base).value.localRoot.Some?
    ensures var found := FindGlobalAndLocalRoot(files, base).value;
      && IsPrefix(found.globalRoot, found.localRoot.value)
      && |found.globalRoot| < |found.localRoot.value|
      && IsPrefix(found.localRoot.value, base)
  {
    var found := FindGlobalAndLocalRoot(files, base).value;
    PrefixesComparable(found.globalRoot, found.localRoot.value, base);
  }

  /** `get_relative_local_root`: the components leading from the global root
      down to the local root, or `None` when there is no local root or it is
      not below the global root. */
  function GetRelativeLocalRoot(globalRoot: Dir, localRoot: Option<Dir>): (r: Option<Dir>)
    ensures localRoot.None? ==> r.None?
    ensures localRoot.Some? && IsPrefix(globalRoot, localRoot.value) ==>
      r.Some? && globalRoot + r.value == localRoot.value
    ensures localRoot.Some? && !IsPrefix(globalRoot, localRoot.value) ==> r.None?
  {
    match localRoot
    case None => None
    case Some(local) =>
      if IsPrefix(globalRoot, local) then
        assert local == local[..|globalRoot|] + local[|globalRoot|..];
        Some(local[|globalRoot|..])
      else None
  }

  /** For `local = global ++ rel` the relative local root is `rel`. */
  lemma RelativeLocalRootOfAppend(globalRoot: Dir, rel: Dir)
    ensures GetRelativeLocalRoot(globalRoot, Some(globalRoot + rel)) == Some(rel)
  {
    assert IsPrefix(globalRoot, globalRoot + rel);
    var r := GetRelativeLocalRoot(globalRoot, Some(globalRoot + rel)).value;
    assert globalRoot + r == globalRoot + rel;
    assert r == (globalRoot + r)[|globalRoot|..];
  }

  /** Whenever discovery keeps a local root, its relative form is a
      non-empty path. */
  lemma FoundLocalRootHasRelativeForm(files: set<FilePath>, base: Dir)
    requires FindGlobalAndLocalRoot(files, base).Some?
    requires FindGlobalAndLocalRoot(files, base).value.localRoot.Some?
    ensures var found := FindGlobalAndLocalRoot(files, base).value;
      var rel := GetRelativeLocalRoot(found.globalRoot, found.localRoot);
      rel.Some? && |rel.value| > 0 && found.globalRoot + rel.value == found.localRoot.value
  {
    LocalRootBelowGlobalRoot(files, base);
  }
}

=== FILE: find_examples.dfy ===
/** Two discovery scenarios, worked out on concrete directory trees. */
module FindExamples {
  import opened Wrappers
  import opened FileSystem
  import opened FindDirectories

  /** `/a/.pyre_configuration` and `/a/b/.pyre_configuration.local`, searched
      from `/a/b/c`: global root `/a`, local root `/a/b`. */
  lemma NestedLocalExample()
    ensures FindGlobalAndLocalRoot({["a", ConfigurationFile], ["a", "b", LocalConfigurationFile]}, ["a", "b", "c"])
         == Some(FoundRoot(["a"], Some(["a", "b"])))
  {
    var files: set<FilePath> := {["a", ConfigurationFile], ["a", "b", LocalConfigurationFile]};
    var base: Dir := ["a", "b", "c"];
    assert Ancestor(base, 0) + [ConfigurationFile] == ["a", "b", "c", ConfigurationFile];
    assert Ancestor(base, 1) + [ConfigurationFile] == ["a", "b", ConfigurationFile];
    assert Ancestor(base, 2) + [ConfigurationFile] == ["a", ConfigurationFile];
    assert Ancestor(base, 0) + [LocalConfigurationFile] == ["a", "b", "c", LocalConfigurationFile];
    assert Ancestor(base, 1) + [LocalConfigurationFile] == ["a", "b", LocalConfigurationFile];
    var g := NearestGlobal(files, base);
    var l := NearestLocal(files, base);
    assert g.value == Ancestor(base, |base| - |g.value|);
    assert l.value == Ancestor(base, |base| - |l.value|);
    assert g.value == ["a"];
    assert l.value == ["a", "b"];
  }

  /** `/a/b/.pyre_configuration` and `/a/.pyre_configuration.local`, searched
      from `/a/b/c`: the local root lies above the global root and is dropped. */
  lemma InvertedLocalExample()
    ensures FindGlobalAndLocalRoot({["a", "b", ConfigurationFile], ["a", LocalConfigurationFile]}, ["a", "b", "c"])
         == Some(FoundRoot(["a", "b"], None))
  {
    var files: set<FilePath> := {["a", "b", ConfigurationFile], ["a", LocalConfigurationFile]};
    var base: Dir := ["a", "b", "c"];
    assert Ancestor(base, 0) + [ConfigurationFile] == ["a", "b", "c", ConfigurationFile];
    assert Ancestor(base, 1) + [ConfigurationFile] == ["a", "b", ConfigurationFile];
    assert Ancestor(base, 0) + [LocalConfigurationFile] == ["a", "b", "c", LocalConfigurationFile];
    assert Ancestor(base, 1) + [LocalConfigurationFile] == ["a", "b", LocalConfigurationFile];
    assert Ancestor(base, 2) + [LocalConfigurationFile] == ["a", LocalConfigurationFile];
    var g := NearestGlobal(files, base);
    var l := NearestLocal(files, base);
    assert g.value == Ancestor(base, |base| - |g.value|);
    assert l.value == Ancestor(base, |base| - |l.value|);
    assert g.value == ["a", "b"];
    assert l.value == ["a"];
  }
}

=== FILE: integers.dfy ===
/** Rust's 32-bit signed integers: their decimal `Display` form and
    `str::parse::<i32>`. */
module Integers {
  import opened Wrappers

  type Int32 = x: int | -0x8000_0000 <= x < 0x8000_0000

  predicate IsDigit(c: char) {
    '0' <= c <= '9'
  }

  predicate AllDigits(s: string) {
    forall i :: 0 <= i < |s| ==> IsDigit(s[i])
  }

  function DigitValue(c: char): nat
    requires IsDigit(c)
  {
    (c as int) - ('0' as int)
  }

  function DigitChar(d: nat): (c: char)
    requires d < 10
    ensures IsDigit(c) && DigitValue(c) == d
  {
    ('0' as int + d) as char
  }

  /** The number a string of decimal digits denotes, most significant first. */
  function DigitsValue(s: string): nat
    requires AllDigits(s)
  {
    if |s| == 0 then 0 else 10 * DigitsValue(s[..|s| - 1]) + DigitValue(s[|s| - 1])
  }

  /** Decimal digits of `n` without leading zeros. */
  function NatToString(n: nat): (s: string)
    ensures |s| >= 1 && AllDigits(s)
    ensures DigitsValue(s) == n
    ensures s[0] == '0' ==> n == 0
    decreases n
  {
    if n < 10 then [DigitChar(n)]
    else
      var prefix := NatToString(n / 10);
      var s := prefix + [DigitChar(n % 10)];
      assert s[..|s| - 1] == prefix;
      s
  }

  /** Rust's `Display` for a signed integer: a minus sign for negatives, then
      the digits of the magnitude. */
  function IntToString(n: int): (s: string)
    ensures |s| >= 1
    ensures forall i :: 0 <= i < |s| ==> IsDigit(s[i]) || (i == 0 && s[i] == '-')
    ensures s[0] == '-' <==> n < 0
  {
    if n < 0 then "-" + NatToString(-n) else NatToString(n)
  }

  /** Rust's `str::parse::<i32>`: an optional `+` or `-`, then one or more
      ASCII digits, and a value that fits in 32 bits; anything else fails. */
  function ParseInt32(s: string): (r: Option<Int32>)
    ensures r.Some? ==> |s| >= 1 && IsDigit(s[|s| - 1])
    ensures r.Some? ==> forall i :: 0 <= i < |s| ==> IsDigit(s[i]) || (i == 0 && (s[i] == '-' || s[i] == '+'))
  {
    var signed := |s| > 0 && (s[0] == '-' || s[0] == '+');
    var digits := if signed then s[1..] else s;
    if |digits| == 0 || !AllDigits(digits) then None
    else
      var magnitude := DigitsValue(digits);
      var v: int := if s[0] == '-' then 0 - (magnitude as int) else magnitude;
      if -0x8000_0000 <= v < 0x8000_0000 then
        assert forall i :: 1 <= i < |s| && signed ==> s[i] == digits[i - 1];
        Some(v)
      else None
  }

  /** Parsing the printed form of any 32-bit integer gives that integer back. */
  lemma ParseIntToString(n: Int32)
    ensures ParseInt32(IntToString(n)) == Some(n)
  {
    var s := IntToString(n);
    if n < 0 {
      var m: nat := -(n as int);
      assert s[1..] == NatToString(m);
    } else {
      assert s == NatToString(n);
    }
  }

  /** The empty string and a lone sign are not integers. */
  lemma ParseRejectsMissingDigits()
    ensures ParseInt32("") == None
    ensures ParseInt32("-") == None && ParseInt32("+") == None
  {
    assert "-"[1..] == "";
    assert "+"[1..] == "";
  }
}

=== FILE: json.dfy ===
/** The loosely typed document a configuration file decodes into: a JSON
    object, kept as its members in file order. */
module JsonValues {
  import opened Wrappers

  datatype Json =
    | JNull
    | JBool(b: bool)
    | JInt(i: int)
    | JString(s: string)
    | JArray(items: seq<Json>)
    | JObject(members: seq<Member>)

  datatype Member = Member(key: string, value: Json)

  type Document = seq<Member>

  /** The keys present in a document. */
  function KeySet(doc: Document): set<string> {
    set m | m in doc :: m.key
  }

  /** The value stored under `key` (the first one, should it repeat). */
  function Lookup(doc: Document, key: string): (r: Option<Json>)
    ensures r.Some? <==> key in KeySet(doc)
    ensures r.Some? ==> Member(key, r.value) in doc
  {
    if |doc| == 0 then None
    else if doc[0].key == key then Some(doc[0].value)
    else
      assert doc == [doc[0]] + doc[1..];
      Lookup(doc[1..], key)
  }

  /** The document after every member whose key is in `keys` was popped,
      the others keeping their order. */
  function Without(doc: Document, keys: set<string>): (r: Document)
    ensures forall m :: m in r <==> m in doc && m.key !in keys
    ensures KeySet(r) == KeySet(doc) - keys
  {
    if |doc| == 0 then []
    else
      assert doc == [doc[0]] + doc[1..];
      var rest := Without(doc[1..], keys);
      if doc[0].key in keys then rest else [doc[0]] + rest
  }

  /** No key occurs twice, as in any decoded JSON object. */
  predicate DistinctKeys(doc: Document) {
    forall i, j :: 0 <= i < j < |doc| ==> doc[i].key != doc[j].key
  }

  lemma {:induction false} WithoutKeepsDistinct(doc: Document, keys: set<string>)
    requires DistinctKeys(doc)
    ensures DistinctKeys(Without(doc, keys))
    decreases |doc|
  {
    if |doc| > 0 {
      WithoutKeepsDistinct(doc[1..], keys);
      var rest := Without(doc[1..], keys);
      if doc[0].key !in keys {
        forall j | 0 <= j < |rest|
          ensures doc[0].key != rest[j].key
        {
          assert rest[j] in doc[1..];
        }
      }
    }
  }
}

=== FILE: partial_configuration.dfy ===
/** One layer of configuration: every setting optional (or an empty list),
    built from the command line or from a file, then anchored at the layer's
    own directory by `ExpandRelativePaths`. */
module PartialConfig {
  import opened Wrappers
  import opened FileSystem
  import opened SearchPath
  import opened PythonVersions
  import opened SitePackages
  import opened JsonValues

  datatype IdeFeatures = IdeFeatures(
    hoverEnabled: Option<bool>,
    goToDefinitionEnabled: Option<bool>,
    findSymbolsEnabled: Option<bool>,
    findAllReferencesEnabled: Option<bool>)

  datatype SharedMemory = SharedMemory(
    heapSize: Option<int>,
    dependencyTablePower: Option<int>,
    hashTablePower: Option<int>)

  datatype UnwatchedFiles = UnwatchedFiles(root: string, checksumPath: string)

  datatype UnwatchedDependency = UnwatchedDependency(changeIndicator: string, files: UnwatchedFiles)

  /** The build mode: one mode, or one per platform. */
  datatype BuckMode = BuckModeString(mode: string) | BuckModePerPlatform(modes: seq<(string, string)>)

  datatype PartialConfiguration = PartialConfiguration(
    binary: Option<string>,
    buckMode: Option<BuckMode>,
    doNotIgnoreErrorsIn: seq<string>,
    dotPyreDirectory: Option<string>,
    excludes: seq<string>,
    extensions: seq<Json>,
    ideFeatures: Option<IdeFeatures>,
    ignoreAllErrors: seq<string>,
    isolationPrefix: Option<string>,
    logger: Option<string>,
    numberOfWorkers: Option<int>,
    oncall: Option<string>,
    otherCriticalFiles: seq<string>,
    pysaVersionHash: Option<string>,
    pythonVersion: Option<PythonVersion>,
    searchPath: seq<RawElement>,
    sharedMemory: SharedMemory,
    sitePackageSearchStrategy: Option<SearchStrategy>,
    siteRoots: Option<seq<string>>,
    sourceDirectories: Option<seq<RawElement>>,
    strict: Option<bool>,
    taintModelsPath: seq<string>,
    targets: Option<seq<string>>,
    typeshed: Option<string>,
    unwatchedDependency: Option<UnwatchedDependency>,
    useBuck2: Option<bool>,
    versionHash: Option<string>)

  /** The command-line flags the configuration layer reads. */
  datatype CommandArguments = CommandArguments(
    localConfiguration: Option<string>,
    strict: bool,
    logger: Option<string>,
    targets: seq<string>,
    sourceDirectories: seq<string>,
    doNotIgnoreErrorsIn: seq<string>,
    buckMode: Option<string>,
    searchPath: seq<string>,
    binary: Option<string>,
    exclude: seq<string>,
    typeshed: Option<string>,
    dotPyreDirectory: Option<string>,
    isolationPrefix: Option<string>,
    pythonVersion: Option<string>,
    sharedMemoryHeapSize: Option<int>,
    sharedMemoryDependencyTablePower: Option<int>,
    sharedMemoryHashTablePower: Option<int>,
    numberOfWorkers: Option<int>,
    enableHover: Option<bool>,
    enableGoToDefinition: Option<bool>,
    enableFindSymbols: Option<bool>,
    enableFindAllReferences: Option<bool>,
    useBuck2: Option<bool>)

  datatype JsonType = StringType | IntType | BoolType

  /** What a configuration field was expected to hold. */
  datatype Expected =
    | TypeOf(t: JsonType)
    | ListOfStrings
    | StringOrStringDict
    | DictOfStrings
    | AnyList

  datatype ConfigurationError =
    | FieldTypeError(field: string, expected: Expected, got: Json)
    | InvalidPythonVersion(reason: InvalidPythonVersionError)
    | MissingConfiguration(fileName: string, searchBase: Dir)
    | UnreadableFile(path: FilePath)

  /** The IDE toggles as one group, present only when some toggle was given. */
  function CommandLineIdeFeatures(arguments: CommandArguments): Option<IdeFeatures> {
    if || arguments.enableHover.Some?
       || arguments.enableGoToDefinition.Some?
       || arguments.enableFindSymbols.Some?
       || arguments.enableFindAllReferences.Some?
    then Some(IdeFeatures(arguments.enableHover, arguments.enableGoToDefinition,
                          arguments.enableFindSymbols, arguments.enableFindAllReferences))
    else None
  }

  function CommandLinePythonVersion(arguments: CommandArguments): Result<Option<PythonVersion>, ConfigurationError> {
    match arguments.pythonVersion
    case None => Success(None)
    case Some(s) =>
      match ParseVersion(s)
      case Success(v) => Success(Some(v))
      case Failure(e) => Failure(InvalidPythonVersion(e))
  }

  /** `PartialConfiguration::from_command_arguments`. */
  function FromCommandArguments(arguments: CommandArguments): (r: Result<PartialConfiguration, ConfigurationError>)
    ensures r.Success? <==> arguments.pythonVersion.None? || ParseVersion(arguments.pythonVersion.value).Success?
    ensures r.Failure? ==> r.error == InvalidPythonVersion(ParseVersion(arguments.pythonVersion.value).error)
    ensures r.Success? ==>
      var p := r.value;
      // strict is either set or absent, never explicitly false
      && p.strict != Some(false)
      && (p.strict.Some? <==> arguments.strict)
      // an empty target list does not count as a setting
      && (p.targets.None? <==> |arguments.targets| == 0)
      && (p.targets.Some? ==> p.targets.value == arguments.targets)
      // the IDE group exists exactly when some toggle was given, and carries all four
      && (p.ideFeatures.Some? <==>
           (|| arguments.enableHover.Some? || arguments.enableGoToDefinition.Some?
            || arguments.enableFindSymbols.Some? || arguments.enableFindAllReferences.Some?))
      && (p.ideFeatures.Some? ==>
           && p.ideFeatures.value.hoverEnabled == arguments.enableHover
           && p.ideFeatures.value.goToDefinitionEnabled == arguments.enableGoToDefinition
           && p.ideFeatures.value.findSymbolsEnabled == arguments.enableFindSymbols
           && p.ideFeatures.value.findAllReferencesEnabled == arguments.enableFindAllReferences)
      // settings only a configuration file can make
      && p.oncall.None? && p.pysaVersionHash.None? && p.sitePackageSearchStrategy.None?
      && p.siteRoots.None? && p.unwatchedDependency.None? && p.versionHash.None?
      && p.extensions == [] && p.ignoreAllErrors == [] && p.otherCriticalFiles == []
      && p.taintModelsPath == []
      // the shared-memory knobs, one for one
      && p.sharedMemory.heapSize == arguments.sharedMemoryHeapSize
      && p.sharedMemory.dependencyTablePower == arguments.sharedMemoryDependencyTablePower
      && p.sharedMemory.hashTablePower == arguments.sharedMemoryHashTablePower
      // path lists become elements in the same order
      && p.sourceDirectories.Some? && Roots(p.sourceDirectories.value) == arguments.sourceDirectories
      && Roots(p.searchPath) == arguments.searchPath
      // everything else as given
      && p.binary == arguments.binary && p.logger == arguments.logger && p.typeshed == arguments.typeshed
      && p.dotPyreDirectory == arguments.dotPyreDirectory && p.isolationPrefix == arguments.isolationPrefix
      && p.numberOfWorkers == arguments.numberOfWorkers && p.useBuck2 == arguments.useBuck2
      && p.excludes == arguments.exclude && p.doNotIgnoreErrorsIn == arguments.doNotIgnoreErrorsIn
      && (p.buckMode.Some? <==> arguments.buckMode.Some?)
      && (p.buckMode.Some? ==> p.buckMode.value == BuckModeString(arguments.buckMode.value))
      && (p.pythonVersion.Some? <==> arguments.pythonVersion.Some?)
      && (p.pythonVersion.Some? ==> Success(p.pythonVersion.value) == ParseVersion(arguments.pythonVersion.value))
  {
    var pythonVersion :- CommandLinePythonVersion(arguments);
    Success(PartialConfiguration(
      binary := arguments.binary,
      buckMode := match arguments.buckMode case None => None case Some(m) => Some(BuckModeString(m)),
      doNotIgnoreErrorsIn := arguments.doNotIgnoreErrorsIn,
      dotPyreDirectory := arguments.dotPyreDirectory,
      excludes := arguments.exclude,
      extensions := [],
      ideFeatures := CommandLineIdeFeatures(arguments),
      ignoreAllErrors := [],
      isolationPrefix := arguments.isolationPrefix,
      logger := arguments.logger,
      numberOfWorkers := arguments.numberOfWorkers,
      oncall := None,
      otherCriticalFiles := [],
      pysaVersionHash := None,
      pythonVersion := pythonVersion,
      searchPath := FromRoots(arguments.searchPath),
      sharedMemory := SharedMemory(arguments.sharedMemoryHeapSize,
                                   arguments.sharedMemoryDependencyTablePower,
                                   arguments.sharedMemoryHashTablePower),
      sitePackageSearchStrategy := None,
      siteRoots := None,
      sourceDirectories := Some(FromRoots(arguments.sourceDirectories)),
      strict := if arguments.strict then Some(true) else None,
      taintModelsPath := [],
      targets := if |arguments.targets| > 0 then Some(arguments.targets) else None,
      typeshed := arguments.typeshed,
      unwatchedDependency := None,
      useBuck2 := arguments.useBuck2,
      versionHash := None))
  }

  // ----- expand_relative_paths -----

  function ExpandOptionalPath(canonicalize: Canonicalizer, root: string, path: Option<string>): (r: Option<string>)
    ensures r.Some? <==> path.Some?
    ensures r.Some? ==> r.value == ExpandRelativePath(canonicalize, root, path.value)
  {
    match path
    case None => None
    case Some(p) => Some(ExpandRelativePath(canonicalize, root, p))
  }

  function ExpandPaths(canonicalize: Canonicalizer, root: string, paths: seq<string>): (r: seq<string>)
    ensures |r| == |paths|
    ensures forall i :: 0 <= i < |paths| ==> r[i] == ExpandRelativePath(canonicalize, root, paths[i])
  {
    seq(|paths|, i requires 0 <= i < |paths| => ExpandRelativePath(canonicalize, root, paths[i]))
  }

  function ExpandElements(canonicalize: Canonicalizer, root: string, elements: seq<RawElement>): (r: seq<RawElement>)
    ensures |r| == |elements|
    ensures forall i :: 0 <= i < |elements| ==> r[i] == ExpandElementRelativeRoot(canonicalize, elements[i], root)
  {
    seq(|elements|, i requires 0 <= i < |elements| => ExpandElementRelativeRoot(canonicalize, elements[i], root))
  }

  function ExpandUnwatched(canonicalize: Canonicalizer, root: string, u: UnwatchedDependency): UnwatchedDependency {
    UnwatchedDependency(u.changeIndicator,
                        UnwatchedFiles(ExpandRelativePath(canonicalize, root, u.files.root), u.files.checksumPath))
  }

  /** `expand_relative_paths`: anchors every path-valued setting at `root`
      and leaves every other setting alone. */
  function ExpandRelativePaths(canonicalize: Canonicalizer, p: PartialConfiguration, root: string): (r: PartialConfiguration)
    // with its path fields put back, the result is the input: nothing else changed
    ensures r.(binary := p.binary, logger := p.logger, typeshed := p.typeshed,
               sourceDirectories := p.sourceDirectories, searchPath := p.searchPath,
               doNotIgnoreErrorsIn := p.doNotIgnoreErrorsIn, ignoreAllErrors := p.ignoreAllErrors,
               otherCriticalFiles := p.otherCriticalFiles, taintModelsPath := p.taintModelsPath,
               unwatchedDependency := p.unwatchedDependency) == p
    // single paths are expanded when present
    ensures r.binary == ExpandOptionalPath(canonicalize, root, p.binary)
    ensures r.logger == ExpandOptionalPath(canonicalize, root, p.logger)
    ensures r.typeshed == ExpandOptionalPath(canonicalize, root, p.typeshed)
    // lists keep length and order; search-path elements keep `//` entries for later
    ensures r.sourceDirectories.Some? <==> p.sourceDirectories.Some?
    ensures r.sourceDirectories.Some? ==> r.sourceDirectories.value == ExpandElements(canonicalize, root, p.sourceDirectories.value)
    ensures r.searchPath == ExpandElements(canonicalize, root, p.searchPath)
    ensures r.doNotIgnoreErrorsIn == ExpandPaths(canonicalize, root, p.doNotIgnoreErrorsIn)
    ensures r.ignoreAllErrors == ExpandPaths(canonicalize, root, p.ignoreAllErrors)
    ensures r.otherCriticalFiles == ExpandPaths(canonicalize, root, p.otherCriticalFiles)
    ensures r.taintModelsPath == ExpandPaths(canonicalize, root, p.taintModelsPath)
    // of the unwatched dependency only the files' root is a path to expand
    ensures r.unwatchedDependency.Some? <==> p.unwatchedDependency.Some?
    ensures r.unwatchedDependency.Some? ==>
      && r.unwatchedDependency.value.changeIndicator == p.unwatchedDependency.value.changeIndicator
      && r.unwatchedDependency.value.files.checksumPath == p.unwatchedDependency.value.files.checksumPath
      && r.unwatchedDependency.value.files.root
           == ExpandRelativePath(canonicalize, root, p.unwatchedDependency.value.files.root)
  {
    p.(
      binary := ExpandOptionalPath(canonicalize, root, p.binary),
      logger := ExpandOptionalPath(canonicalize, root, p.logger),
      typeshed := ExpandOptionalPath(canonicalize, root, p.typeshed),
      sourceDirectories := match p.sourceDirectories
        case None => None
        case Some(ds) => Some(ExpandElements(canonicalize, root, ds)),
      searchPath := ExpandElements(canonicalize, root, p.searchPath),
      doNotIgnoreErrorsIn := ExpandPaths(canonicalize, root, p.doNotIgnoreErrorsIn),
      ignoreAllErrors := ExpandPaths(canonicalize, root, p.ignoreAllErrors),
      otherCriticalFiles := ExpandPaths(canonicalize, root, p.otherCriticalFiles),
      taintModelsPath := ExpandPaths(canonicalize, root, p.taintModelsPath),
      unwatchedDependency := match p.unwatchedDependency
        case None => None
        case Some(u) => Some(ExpandUnwatched(canonicalize, root, u)))
  }

  lemma ExpandPathsIdempotent(canonicalize: Canonicalizer, root: string, other: string, paths: seq<string>)
    requires WellFormedCanonicalizer(canonicalize)
    ensures ExpandPaths(canonicalize, other, ExpandPaths(canonicalize, root, paths)) == ExpandPaths(canonicalize, root, paths)
  {
    forall i | 0 <= i < |paths| {
      ExpandRelativePathIdempotent(canonicalize, root, other, paths[i]);
    }
  }

  lemma ExpandElementsIdempotent(canonicalize: Canonicalizer, root: string, other: string, elements: seq<RawElement>)
    requires WellFormedCanonicalizer(canonicalize)
    ensures ExpandElements(canonicalize, other, ExpandElements(canonicalize, root, elements))
         == ExpandElements(canonicalize, root, elements)
  {
    forall i | 0 <= i < |elements| {
      ExpandElementRelativeRootIdempotent(canonicalize, elements[i], root, other);
    }
  }

  /** Expanding a layer that was already expanded, against any directory,
      changes nothing: its paths are canonical and absolute, and `//`
      entries stay as they were. */
  lemma ExpandRelativePathsIdempotent(canonicalize: Canonicalizer, p: PartialConfiguration, root: string, other: string)
    requires WellFormedCanonicalizer(canonicalize)
    ensures var once := ExpandRelativePaths(canonicalize, p, root);
      ExpandRelativePaths(canonicalize, once, other) == once
  {
    var once := ExpandRelativePaths(canonicalize, p, root);
    var twice := ExpandRelativePaths(canonicalize, once, other);
    if p.binary.Some? { ExpandRelativePathIdempotent(canonicalize, root, other, p.binary.value); }
    if p.logger.Some? { ExpandRelativePathIdempotent(canonicalize, root, other, p.logger.value); }
    if p.typeshed.Some? { ExpandRelativePathIdempotent(canonicalize, root, other, p.typeshed.value); }
    if p.sourceDirectories.Some? { ExpandElementsIdempotent(canonicalize, root, other, p.sourceDirectories.value); }
    ExpandElementsIdempotent(canonicalize, root, other, p.searchPath);
    ExpandPathsIdempotent(canonicalize, root, other, p.doNotIgnoreErrorsIn);
    ExpandPathsIdempotent(canonicalize, root, other, p.ignoreAllErrors);
    ExpandPathsIdempotent(canonicalize, root, other, p.otherCriticalFiles);
    ExpandPathsIdempotent(canonicalize, root, other, p.taintModelsPath);
    if p.unwatchedDependency.Some? {
      ExpandRelativePathIdempotent(canonicalize, root, other, p.unwatchedDependency.value.files.root);
    }
  }
}

=== FILE: python_version.dfy ===
/** The target Python version: parsing `X`, `X.Y` or `X.Y.Z` and printing
    `major.minor.micro`. */
module PythonVersions {
  import opened Wrappers
  import opened Text
  import opened Integers

  datatype PythonVersion = PythonVersion(major: Int32, minor: Int32, micro: Int32)

  datatype InvalidPythonVersionError = InvalidPythonVersionError(msg: string)

  /** The message any component that is not an `i32` produces. */
  const IntParseError := InvalidPythonVersionError("Int parse error")

  function WrongShapeError(s: string): InvalidPythonVersionError {
    InvalidPythonVersionError("Version string is expected to have the form of 'X.Y.Z' but got " + s)
  }

  /** A dot-separated component, as `?` converts a failed `parse::<i32>`. */
  function Component(s: string): Result<Int32, InvalidPythonVersionError> {
    match ParseInt32(s)
    case Some(n) => Success(n)
    case None => Failure(IntParseError)
  }

  /** `PythonVersion::new`: one to three dot-separated integers, missing
      trailing components default to zero. */
  function ParseVersion(s: string): (r: Result<PythonVersion, InvalidPythonVersionError>)
    ensures r.Failure? ==> r.error == IntParseError || r.error == WrongShapeError(s)
  {
    FromComponents(Split(s, '.'), s)
  }

  /** The version built from the pieces of `s` between its dots. */
  function FromComponents(splits: seq<string>, s: string): (r: Result<PythonVersion, InvalidPythonVersionError>)
    ensures r.Failure? ==> r.error == IntParseError || r.error == WrongShapeError(s)
  {
    if |splits| == 1 then
      var major :- Component(splits[0]);
      Success(PythonVersion(major, 0, 0))
    else if |splits| == 2 then
      var major :- Component(splits[0]);
      var minor :- Component(splits[1]);
      Success(PythonVersion(major, minor, 0))
    else if |splits| == 3 then
      var major :- Component(splits[0]);
      var minor :- Component(splits[1]);
      var micro :- Component(splits[2]);
      Success(PythonVersion(major, minor, micro))
    else
      Failure(WrongShapeError(s))
  }

  /** What the pieces must look like: at most three, each an `i32`; four or
      more give the shape error naming the input, and a piece that is not an
      integer gives the integer-parse error. */
  lemma FromComponentsSpec(parts: seq<string>, s: string)
    requires |parts| >= 1
    ensures FromComponents(parts, s).Success? <==>
      |parts| <= 3 && forall i :: 0 <= i < |parts| ==> ParseInt32(parts[i]).Some?
    ensures var r := FromComponents(parts, s);
      r.Success? ==>
        && r.value.major == ParseInt32(parts[0]).value
        && r.value.minor == (if |parts| >= 2 then ParseInt32(parts[1]).value else 0)
        && r.value.micro == (if |parts| == 3 then ParseInt32(parts[2]).value else 0)
    ensures |parts| >= 4 ==> FromComponents(parts, s) == Failure(WrongShapeError(s))
    ensures |parts| <= 3 && FromComponents(parts, s).Failure? ==> FromComponents(parts, s).error == IntParseError
  {
    if |parts| == 1 {
    } else if |parts| == 2 {
    } else if |parts| == 3 {
    }
  }

  /** What `ParseVersion` accepts, stated on the pieces between the dots. */
  lemma ParseVersionSpec(s: string)
    ensures var parts := Split(s, '.');
      ParseVersion(s).Success? <==> |parts| <= 3 && forall i :: 0 <= i < |parts| ==> ParseInt32(parts[i]).Some?
    ensures var parts := Split(s, '.'); var r := ParseVersion(s);
      r.Success? ==>
        && r.value.major == ParseInt32(parts[0]).value
        && r.value.minor == (if |parts| >= 2 then ParseInt32(parts[1]).value else 0)
        && r.value.micro == (if |parts| == 3 then ParseInt32(parts[2]).value else 0)
    ensures |Split(s, '.')| >= 4 ==> ParseVersion(s) == Failure(WrongShapeError(s))
    ensures |Split(s, '.')| <= 3 && ParseVersion(s).Failure? ==> ParseVersion(s).error == IntParseError
  {
    FromComponentsSpec(Split(s, '.'), s);
  }

  /** `Display::fmt`: always three components. */
  function Format(v: PythonVersion): string {
    IntToString(v.major) + "." + IntToString(v.minor) + "." + IntToString(v.micro)
  }

  lemma DotFree(n: int)
    ensures '.' !in IntToString(n)
  {
    var s := IntToString(n);
    assert forall i :: 0 <= i < |s| ==> s[i] != '.';
  }

  /** The printed form is the three components joined by dots, so it splits
      back into exactly those three pieces. */
  lemma FormatSplits(v: PythonVersion)
    ensures Split(Format(v), '.') == [IntToString(v.major), IntToString(v.minor), IntToString(v.micro)]
  {
    var parts := [IntToString(v.major), IntToString(v.minor), IntToString(v.micro)];
    DotFree(v.major);
    DotFree(v.minor);
    DotFree(v.micro);
    assert Join(parts[2..], '.') == parts[2];
    assert Join(parts[1..], '.') == parts[1] + "." + parts[2];
    assert Join(parts, '.') == Format(v);
    SplitJoin(parts, '.');
  }

  /** Round trip: parsing what `Display` prints gives the version back. */
  lemma ParseFormat(v: PythonVersion)
    ensures ParseVersion(Format(v)) == Success(v)
  {
    FormatSplits(v);
    ParseIntToString(v.major);
    ParseIntToString(v.minor);
    ParseIntToString(v.micro);
  }

  /** `"X"` parses to (X, 0, 0) and `"X.Y"` to (X, Y, 0). */
  lemma ParseShortForms(x: Int32, y: Int32)
    ensures ParseVersion(IntToString(x)) == Success(PythonVersion(x, 0, 0))
    ensures ParseVersion(IntToString(x) + "." + IntToString(y)) == Success(PythonVersion(x, y, 0))
  {
    DotFree(x);
    DotFree(y);
    SplitJoin([IntToString(x)], '.');
    var two := [IntToString(x), IntToString(y)];
    assert Join(two[1..], '.') == two[1];
    assert Join(two, '.') == IntToString(x) + "." + IntToString(y);
    SplitJoin(two, '.');
    ParseIntToString(x);
    ParseIntToString(y);
  }

  /** A version written with two components prints with an explicit zero
      micro component, e.g. "3.8" prints as "3.8.0". */
  lemma ShortFormPrintsThreeComponents(x: Int32, y: Int32)
    ensures ParseVersion(IntToString(x) + "." + IntToString(y)).Success?
    ensures Format(ParseVersion(IntToString(x) + "." + IntToString(y)).value)
         == IntToString(x) + "." + IntToString(y) + ".0"
  {
    ParseShortForms(x, y);
    assert IntToString(0) == "0";
  }

  /** The empty string is not a version: its only component is empty. */
  lemma EmptyIsInvalid()
    ensures ParseVersion("") == Failure(IntParseError)
  {
    assert '.' !in "";
    assert Split("", '.') == [""];
    ParseRejectsMissingDigits();
  }
}

=== FILE: search_path.dfy ===
/** Search-path elements before (`RawElement`) and after (`Element`)
    expansion.  Only the simple kind, a single root string, exists. */
module SearchPath {
  import opened Text
  import opened FileSystem
  import opened Sorting
  import opened Diagnostics

  datatype RawElement = SimpleRawElement(root: string)

  datatype Element = SimpleElement(root: string)

  /** `_expand_relative_root`: a `//` path is left for global-root
      expansion; any other path is expanded against `relativeRoot`. */
  function ExpandRelativeRootPath(canonicalize: Canonicalizer, path: string, relativeRoot: string): (r: string)
    ensures StartsWith(path, GlobalRootMarker) ==> r == path
    ensures !StartsWith(path, GlobalRootMarker) ==> r == ExpandRelativePath(canonicalize, relativeRoot, path)
  {
    if !StartsWith(path, GlobalRootMarker) then ExpandRelativePath(canonicalize, relativeRoot, path)
    else path
  }

  /** `SimpleRawElement::expand_global_root`: only the root changes. */
  function ExpandElementGlobalRoot(canonicalize: Canonicalizer, e: RawElement, globalRoot: string): (r: RawElement)
    ensures r.root == ExpandGlobalRoot(canonicalize, e.root, globalRoot)
  {
    SimpleRawElement(ExpandGlobalRoot(canonicalize, e.root, globalRoot))
  }

  /** `SimpleRawElement::expand_relative_root`: only the root changes. */
  function ExpandElementRelativeRoot(canonicalize: Canonicalizer, e: RawElement, relativeRoot: string): (r: RawElement)
    ensures r.root == ExpandRelativeRootPath(canonicalize, e.root, relativeRoot)
  {
    SimpleRawElement(ExpandRelativeRootPath(canonicalize, e.root, relativeRoot))
  }

  /** Relative expansion followed by global expansion: a `//x` entry ends up
      relative to the global root, whatever the relative root was; any other
      entry ends up relative to the relative root, and global expansion then
      leaves it alone. */
  lemma ExpandRelativeThenGlobal(canonicalize: Canonicalizer, e: RawElement, relativeRoot: string, globalRoot: string)
    requires WellFormedCanonicalizer(canonicalize)
    ensures var r := ExpandElementGlobalRoot(canonicalize, ExpandElementRelativeRoot(canonicalize, e, relativeRoot), globalRoot);
      && (StartsWith(e.root, GlobalRootMarker) ==> r.root == ExpandRelativePath(canonicalize, globalRoot, e.root[2..]))
      && (!StartsWith(e.root, GlobalRootMarker) ==> r.root == ExpandRelativePath(canonicalize, relativeRoot, e.root))
  {
    if !StartsWith(e.root, GlobalRootMarker) {
      ExpandRelativePathIdempotent(canonicalize, relativeRoot, globalRoot, e.root);
    }
  }

  /** The global marker survives relative expansion: `"//" + x` expanded
      relatively and then globally is `x` expanded against the global root. */
  lemma GlobalMarkerSurvivesRelativeExpansion(canonicalize: Canonicalizer, x: string, relativeRoot: string, globalRoot: string)
    ensures var e := SimpleRawElement(GlobalRootMarker + x);
      ExpandElementGlobalRoot(canonicalize, ExpandElementRelativeRoot(canonicalize, e, relativeRoot), globalRoot).root
        == ExpandRelativePath(canonicalize, globalRoot, x)
  {
    var p := GlobalRootMarker + x;
    assert StartsWith(p, GlobalRootMarker);
    assert p[2..] == x;
  }

  /** Search-path entries expanded at a layer are not changed by expanding
      them again at another layer. */
  lemma ExpandElementRelativeRootIdempotent(canonicalize: Canonicalizer, e: RawElement, root: string, other: string)
    requires WellFormedCanonicalizer(canonicalize)
    ensures var once := ExpandElementRelativeRoot(canonicalize, e, root);
      ExpandElementRelativeRoot(canonicalize, once, other) == once
  {
    if !StartsWith(e.root, GlobalRootMarker) {
      ExpandRelativePathIdempotent(canonicalize, root, other, e.root);
    }
  }

  /** `SimpleRawElement::expand_glob`: one element per path the pattern
      matches, in ascending order; nothing, and a warning, when it matches
      nothing.  `glob` stands for the filesystem's pattern matching. */
  function ExpandGlob(glob: string -> seq<string>, e: RawElement): (r: (seq<RawElement>, seq<Warning>))
    ensures |r.0| == |glob(e.root)|
    ensures Sorted(Roots(r.0))
    ensures multiset(Roots(r.0)) == multiset(glob(e.root))
    ensures |r.0| == 0 <==> r.1 == [NoGlobMatch(e.root)]
    ensures |r.0| > 0 ==> r.1 == []
  {
    var expanded := Sort(glob(e.root));
    if |expanded| > 0 then
      (FromRoots(expanded), [])
    else
      ([], [NoGlobMatch(e.root)])
  }

  /** The roots of a sequence of elements, in order. */
  function Roots(es: seq<RawElement>): (r: seq<string>)
    ensures |r| == |es|
    ensures forall i :: 0 <= i < |es| ==> r[i] == es[i].root
  {
    seq(|es|, i requires 0 <= i < |es| => es[i].root)
  }

  /** One simple element per path, in order. */
  function FromRoots(paths: seq<string>): (r: seq<RawElement>)
    ensures Roots(r) == paths
  {
    var r := seq(|paths|, i requires 0 <= i < |paths| => SimpleRawElement(paths[i]));
    assert Roots(r) == paths;
    r
  }

  /** `SimpleRawElement::to_element`. */
  function ToElement(e: RawElement): (r: Element)
    ensures ElementPath(r) == e.root && CommandLineArgument(r) == e.root
  {
    SimpleElement(e.root)
  }

  /** `Element::path` of a simple element. */
  function ElementPath(e: Element): string {
    e.root
  }

  /** `Element::command_line_argument` of a simple element. */
  function CommandLineArgument(e: Element): string {
    e.root
  }
}

=== FILE: site_packages.dfy ===
/** How installed third-party packages are discovered. */
module SitePackages {

  datatype SearchStrategy = NONE | ALL | PEP561

  /** The names `From<&str>` accepts; its match has no arm for any other string. */
  predicate IsStrategyName(s: string) {
    s == "none" || s == "all" || s == "pep561"
  }

  /** `SearchStrategy::from`: exact, case-sensitive names. */
  function StrategyFromString(s: string): (r: SearchStrategy)
    requires IsStrategyName(s)
    ensures r == NONE <==> s == "none"
    ensures r == ALL <==> s == "all"
    ensures r == PEP561 <==> s == "pep561"
  {
    if s == "none" then NONE else if s == "all" then ALL else PEP561
  }

  /** `Default for SearchStrategy`. */
  function DefaultStrategy(): (r: SearchStrategy)
    ensures r == StrategyFromString("none")
  {
    NONE
  }

  /** Distinct names map to distinct strategies. */
  lemma StrategyFromStringInjective(a: string, b: string)
    requires IsStrategyName(a) && IsStrategyName(b)
    requires StrategyFromString(a) == StrategyFromString(b)
    ensures a == b
  {
  }

  /** Only the three lower-case names are accepted. */
  lemma UpperCaseIsNotAName()
    ensures !IsStrategyName("None") && !IsStrategyName("ALL") && !IsStrategyName("PEP561")
  {
  }
}

=== FILE: sorting.dfy ===
/** Lexicographic order on strings (by code point, which for UTF-8 text is the
    byte order Rust's `String` comparison uses) and an insertion sort. */
module Sorting {

  predicate LexLe(a: string, b: string)
    decreases |a|
  {
    if |a| == 0 then true
    else if |b| == 0 then false
    else if a[0] != b[0] then a[0] < b[0]
    else LexLe(a[1..], b[1..])
  }

  lemma {:induction false} LexLeTotal(a: string, b: string)
    ensures LexLe(a, b) || LexLe(b, a)
    decreases |a|
  {
    if |a| > 0 && |b| > 0 && a[0] == b[0] {
      LexLeTotal(a[1..], b[1..]);
    }
  }

  lemma {:induction false} LexLeTransitive(a: string, b: string, c: string)
    requires LexLe(a, b) && LexLe(b, c)
    ensures LexLe(a, c)
    decreases |a|
  {
    if |a| > 0 && |b| > 0 && |c| > 0 && a[0] == b[0] && b[0] == c[0] {
      LexLeTransitive(a[1..], b[1..], c[1..]);
    }
  }

  lemma {:induction false} LexLeAntisymmetric(a: string, b: string)
    requires LexLe(a, b) && LexLe(b, a)
    ensures a == b
    decreases |a|
  {
    if |a| > 0 && |b| > 0 {
      LexLeAntisymmetric(a[1..], b[1..]);
      assert a == [a[0]] + a[1..];
      assert b == [b[0]] + b[1..];
    }
  }

  ghost predicate Sorted(s: seq<string>) {
    forall i, j :: 0 <= i < j < |s| ==> LexLe(s[i], s[j])
  }

  /** Places `x` into an already sorted sequence. */
  function Insert(x: string, s: seq<string>): (r: seq<string>)
    requires Sorted(s)
    ensures Sorted(r)
    ensures multiset(r) == multiset(s) + multiset{x}
    ensures |r| == |s| + 1
    decreases |s|
  {
    if |s| == 0 then [x]
    else if LexLe(x, s[0]) then
      InsertFrontSorted(x, s);
      [x] + s
    else
      LexLeTotal(x, s[0]);
      var tail := Insert(x, s[1..]);
      InsertBehindSorted(x, s, tail);
      assert s == [s[0]] + s[1..];
      [s[0]] + tail
  }

  lemma InsertFrontSorted(x: string, s: seq<string>)
    requires Sorted(s) && |s| > 0 && LexLe(x, s[0])
    ensures Sorted([x] + s)
  {
    forall j | 0 < j < |s| + 1
      ensures LexLe(x, ([x] + s)[j])
    {
      if j > 1 {
        LexLeTransitive(x, s[0], s[j - 1]);
      }
    }
  }

  lemma InsertBehindSorted(x: string, s: seq<string>, tail: seq<string>)
    requires Sorted(s) && |s| > 0 && LexLe(s[0], x)
    requires Sorted(tail) && multiset(tail) == multiset(s[1..]) + multiset{x}
    ensures Sorted([s[0]] + tail)
  {
    forall j | 0 <= j < |tail|
      ensures LexLe(s[0], tail[j])
    {
      assert tail[j] in multiset(tail);
      if tail[j] != x {
        assert tail[j] in multiset(s[1..]);
        var k :| 0 <= k < |s[1..]| && s[1..][k] == tail[j];
        assert s[k + 1] == tail[j];
      }
    }
  }

  /** Ascending order of the same strings: what `Vec::sort` leaves behind. */
  function Sort(s: seq<string>): (r: seq<string>)
    ensures Sorted(r)
    ensures multiset(r) == multiset(s)
    ensures |r| == |s|
    decreases |s|
  {
    if |s| == 0 then []
    else
      var rest := Sort(s[1..]);
      assert s == [s[0]] + s[1..];
      assert multiset(s) == multiset{s[0]} + multiset(s[1..]);
      Insert(s[0], rest)
  }
}

=== FILE: text.dfy ===
/** String helpers: prefixes, splitting on a separator and joining back. */
module Text {

  predicate StartsWith(s: string, prefix: string) {
    |prefix| <= |s| && s[..|prefix|] == prefix
  }

  /** Position of the first occurrence of `c` in `s`. */
  function IndexOf(s: string, c: char): (i: nat)
    requires c in s
    ensures i < |s| && s[i] == c
    ensures c !in s[..i]
  {
    if s[0] == c then 0 else 1 + IndexOf(s[1..], c)
  }

  /** `parts` separated by `sep`; the inverse of `Split`. */
  function Join(parts: seq<string>, sep: char): string {
    if |parts| == 0 then ""
    else if |parts| == 1 then parts[0]
    else parts[0] + [sep] + Join(parts[1..], sep)
  }

  /** Rust's `str::split` on a single character: always at least one piece,
      pieces never contain the separator, and joining them gives `s` back. */
  function Split(s: string, sep: char): (parts: seq<string>)
    ensures |parts| >= 1
    ensures forall p :: p in parts ==> sep !in p
    ensures Join(parts, sep) == s
    decreases |s|
  {
    if sep !in s then [s]
    else
      var i := IndexOf(s, sep);
      var rest := Split(s[i + 1..], sep);
      assert s == s[..i] + [sep] + s[i + 1..];
      [s[..i]] + rest
  }

  /** Splitting a join of separator-free pieces recovers the pieces. */
  lemma {:induction false} SplitJoin(parts: seq<string>, sep: char)
    requires |parts| >= 1
    requires forall p :: p in parts ==> sep !in p
    ensures Split(Join(parts, sep), sep) == parts
    decreases |parts|
  {
    if |parts| == 1 {
      assert Join(parts, sep) == parts[0];
    } else {
      var head := parts[0];
      var tail := Join(parts[1..], sep);
      var s := head + [sep] + tail;
      assert Join(parts, sep) == s;
      assert s[|head|] == sep;
      assert sep in s;
      var i := IndexOf(s, sep);
      assert sep !in head;
      assert i == |head|;
      assert s[..i] == head;
      assert s[i + 1..] == tail;
      assert forall p :: p in parts[1..] ==> p in parts;
      SplitJoin(parts[1..], sep);
      assert parts == [head] + parts[1..];
    }
  }
}

=== FILE: wrappers.dfy ===
/** Option and Result datatypes used throughout the model.  `Result` supports
    Dafny's `:-` so that a decoding step that fails aborts the whole decode,
    as the source's `?` operator does. */
module Wrappers {

  datatype Option<+T> = None | Some(value: T) {

    /** The value held, or `default` when there is none (Rust's `unwrap_or`). */
    function GetOr(default: T): T {
      match this
      case Some(v) => v
      case None => default
    }
  }

  datatype Result<+T, +E> = Success(value: T) | Failure(error: E) {

    predicate IsFailure() {
      Failure?
    }

    function PropagateFailure<U>(): Result<U, E>
      requires Failure?
    {
      Failure(error)
    }

    function Extract(): T
      requires Success?
    {
      value
    }
  }
}
